=== FILE: README.md ===
# PDF semantic search and RAG backend in Dafny

A model of the backend of PdfSemanticSearchDemo. Its pipeline has four stages:

- **Ingest.** A PDF is cut, page by page, into sentence-aligned text chunks (`PdfService`).
- **Store.** Each chunk is embedded and stored as a point in the Qdrant collection `pdf_documents` (`QdrantVectorService`).
- **Retrieve.** A query is embedded and its nearest points are decoded back into search results.
- **Answer.** The results are turned into a prompt for the Ollama chat model, whose reply becomes the answer (`RagService`).

The two controllers, `DocumentController` and `RagController`, are modelled as decision ladders. Each maps a request and the outcomes of the services it calls to a status code, a body, and the calls made.

Files, one Dafny module each:

| file | module | models |
|---|---|---|
| outcomes.dfy | `Outcomes` | `Option` (a nullable reference), `Outcome` (returns a value or raises) |
| text.dfy | `Text` | .NET string helpers: `char.IsWhiteSpace`, `Trim`, `IsNullOrWhiteSpace`, UTF-16 `Length`, integer text, `int.TryParse`, ordinal case-insensitive equality |
| models.dfy | `Models` | `DocumentChunk.cs` and `RagModels.cs`, with their property defaults |
| pdf_service.dfy | `PdfService` | `SplitTextIntoChunks` and the page loop of `ExtractTextFromPdfAsync` |
| qdrant_vector_service.dfy | `QdrantVectorService` | `InitializeAsync`, `StoreDocumentChunksAsync`, `SearchAsync`, `GetPayloadValue` |
| rag_service.dfy | `RagService` | `SearchWithRagAsync` and `GenerateAnswerAsync` |
| document_controller.dfy | `DocumentController` | the `UploadPdf` and `Search` actions |
| rag_controller.dfy | `RagController` | the `SearchWithRag` action |

How the model represents the services' surroundings:

- **Outside services.** Every external service appears as the outcome it gives back. The embedding model gives an `Outcome<Vector>`. The Qdrant server gives a list of collections, a point count, and a list of hits. The chat endpoint gives a `ChatReply`: the POST raises, or it returns a status and a body. An exception is `Throws`. The calls made are recorded as a list of call values, so a contract can say that a call was never made.
- **The chunker.** It has two definitions.
  - `PdfService.Chunks` is the reference. It splits the text at '.', '!' and '?' and trims the pieces. Then it groups the sentences greedily and renders each group as its sentences joined by ". " plus a final ".".
  - `PdfService.SplitTextIntoChunks` is the C# loop with its string buffer. It is proved equal to the reference.
- **Inputs the code does not control.** The clock (`DateTime.UtcNow`), the point ids (`RandomHelper`) and the line terminator written by `AppendLine` are parameters.

## Model

| member | source | states |
|---|---|---|
| PdfService.SplitTextIntoChunks | PdfSemanticSearchDemo/Services/PdfService.cs:45-77 | The loop computes the reference chunking. Every chunk is well formed: it ends in '.', holds no '!' or '?', has every other '.' followed by a space, and has no white space at its start or before its final '.'. Splitting the chunks back gives exactly the trimmed non-empty sentences of the text, in order. |
| PdfService.Pieces | PdfSemanticSearchDemo/Services/PdfService.cs:48 | `Split` on '.', '!' and '?' before empty entries are removed. There is one piece more than there are terminators, and none contains a terminator. Putting the text's terminators back between the pieces, in order, gives the text again, so every split falls exactly at a terminator. The pieces concatenate to the text without its terminators. |
| PdfService.PiecesUnique | PdfSemanticSearchDemo/Services/PdfService.cs:48 | The split is the only one with those properties. Any pieces without terminators, one more than the terminators, that give the text back when the terminators are put between them are exactly `Pieces` of the text. |
| PdfService.PackGroups | PdfSemanticSearchDemo/Services/PdfService.cs:52-74 | Definition of the greedy grouping: a sentence joins the open group while the size guard holds, and otherwise the open group is closed. `PdfService.PackGroupsFlatten` states that no sentence is lost, duplicated or reordered, and `PdfService.PackGroupsGreedy` that each group closes only when the guard fails. |
| PdfService.PackGroupsFlatten | PdfSemanticSearchDemo/Services/PdfService.cs:52-74 | The groups concatenate to the open group followed by the sentences. |
| PdfService.PackGroupsGreedy | PdfSemanticSearchDemo/Services/PdfService.cs:57-67 | Every group but the last was closed because its next sentence would have failed the size guard. |
| PdfService.Chunks | PdfSemanticSearchDemo/Services/PdfService.cs:45-77 | The reference chunking: the greedy groups of the trimmed non-empty sentences, each rendered as its sentences joined by ". " plus ".". It is characterised by `PdfService.ChunksRoundTrip`, `PdfService.ChunksWellFormed`, `PdfService.ChunkLengthBound` and `PdfService.ChunksGreedy`. |
| PdfService.PackPieces | PdfSemanticSearchDemo/Services/PdfService.cs:50-74 | The foreach over the split pieces with its buffer: trim, skip empty, extend or flush, final flush. It yields the rendered greedy grouping of the trimmed sentences. |
| PdfService.ChunksRoundTrip | PdfSemanticSearchDemo/Services/PdfService.cs:48-74 | Inverse: un-joining each chunk at ". " and dropping the final '.' recovers the sentence sequence of the text. No sentence is lost, duplicated or reordered. |
| PdfService.ChunksWellFormed | PdfSemanticSearchDemo/Services/PdfService.cs:54-73 | Every chunk ends in '.', holds no '!' or '?', has every other '.' followed by a space, and has no white space at its start or before its final '.'. |
| PdfService.ChunkLengthBound | PdfSemanticSearchDemo/Services/PdfService.cs:57-59 | A chunk of two or more sentences is at most maxChunkSize + 2 UTF-16 code units long. Only a single over-long sentence can exceed that. |
| PdfService.ChunkBoundReached | PdfSemanticSearchDemo/Services/PdfService.cs:57-65 | The + 2 is reached. With a limit of 10, the sentences "aaaa" and "bbbbb" form one chunk of 12 characters. |
| PdfService.ChunksGreedy | PdfSemanticSearchDemo/Services/PdfService.cs:57-67 | A chunk is closed only when the next sentence would have failed the size guard against it. |
| PdfService.BlankTextHasNoChunks | PdfSemanticSearchDemo/Services/PdfService.cs:48-55 | Text made only of white space and terminators gives no chunks. |
| PdfService.UnterminatedText | PdfSemanticSearchDemo/Services/PdfService.cs:48-74 | Text without a terminator gives its trimmed self plus ".", or nothing when it is blank. |
| PdfService.PageChunks | PdfSemanticSearchDemo/Services/PdfService.cs:24-27 | Definition of a page's chunks: none for a null or blank page, else the chunks of its text with limit 500. `PdfService.PageGuardRedundant` states that the guard changes nothing. |
| PdfService.Assemble | PdfSemanticSearchDemo/Services/PdfService.cs:18-38 | Definition of the records of all pages: each page's records after those of the pages before it. Its layout, fields, order and count are stated by `PdfService.ExtractLayout`, `PdfService.ExtractFields`, `PdfService.ExtractOrdered` and `PdfService.ExtractCount`. |
| PdfService.ExtractTextFromPdf | PdfSemanticSearchDemo/Services/PdfService.cs:18-42 | The reference page loop: the assembled records of every page's chunks. `PdfService.ExtractTextFromPdfAsync` is proved to compute it. |
| PdfService.ExtractTextFromPdfAsync | PdfSemanticSearchDemo/Services/PdfService.cs:18-40 | The page loop and its inner chunk loop compute the reference assembly. The record count is the sum of the per-page chunk counts. |
| PdfService.AddPageRecords | PdfSemanticSearchDemo/Services/PdfService.cs:29-38 | The inner loop appends one record per chunk of the page, numbered from 0. |
| PdfService.ExtractLayout | PdfSemanticSearchDemo/Services/PdfService.cs:18-38 | Chunk i of page p is record number (chunks on earlier pages) + i. It has PageNumber p, ChunkIndex i, the caller's file name, and the chunk as content. |
| PdfService.ExtractFields | PdfSemanticSearchDemo/Services/PdfService.cs:24-37 | Every record has a page number in 1..pages, content equal to its page's chunk, the caller's file name, no id and no embedding. |
| PdfService.ExtractOrdered | PdfSemanticSearchDemo/Services/PdfService.cs:18-38 | Records are ordered by page number, then by chunk index. |
| PdfService.ExtractCount | PdfSemanticSearchDemo/Services/PdfService.cs:24-38 | The number of records is the sum over pages of that page's chunk count. |
| PdfService.PageGuardRedundant | PdfSemanticSearchDemo/Services/PdfService.cs:24-27 | The blank-page guard changes nothing: a blank page would give no chunks anyway. |
| PdfService.NonBlankPageWithoutChunks | PdfSemanticSearchDemo/Services/PdfService.cs:24-38 | A non-blank page can contribute no record. A one-page document whose text is only terminators and white space, with at least one terminator (such as "?!"), is not blank yet yields none. |
| QdrantVectorService.Initialize | PdfSemanticSearchDemo/Services/QdrantVectorService.cs:25-57 | The list call always comes first. A failing list call is rethrown and is the only call made. When the list succeeds and the collection is not listed, exactly one create call follows, for "pdf_documents" with 768-dimensional cosine vectors; when it is listed, nothing else is called. On success the collection exists. A list or create failure is rethrown. |
| QdrantVectorService.InitializeIdempotent | PdfSemanticSearchDemo/Services/QdrantVectorService.cs:30-50 | A second initialisation after a successful one leaves the server unchanged and creates nothing. |
| QdrantVectorService.StoreDocumentChunks | PdfSemanticSearchDemo/Services/QdrantVectorService.cs:59-101 | All or nothing. The result is true exactly when every chunk is embedded and the upsert succeeds. One embed call is made per chunk up to the first failure, and the upsert is made only after all of them succeed. The chunks reached get their embeddings and the rest are unchanged. |
| QdrantVectorService.ChunkPayload | PdfSemanticSearchDemo/Services/QdrantVectorService.cs:77-84 | Definition of the payload stored for a chunk: content, file name, page number, chunk index and creation time. That it decodes back is stated by `QdrantVectorService.PayloadRoundTrip`. |
| QdrantVectorService.DecodeHit | PdfSemanticSearchDemo/Services/QdrantVectorService.cs:149-163 | Definition of the result built from one readable hit: its id text and score, and the content, file name and parsed page number read from its payload. |
| QdrantVectorService.DecodeAll | PdfSemanticSearchDemo/Services/QdrantVectorService.cs:140-175 | The hit loop gives one result per readable hit, in store order, and never more results than hits. |
| QdrantVectorService.EmbeddedCount | PdfSemanticSearchDemo/Services/QdrantVectorService.cs:65-69 | The embedding loop stops at the first failing request: the requests before it all succeeded. |
| QdrantVectorService.GetPayloadValue | PdfSemanticSearchDemo/Services/QdrantVectorService.cs:184-198 | A missing key gives "". A string gives itself. An integer gives its decimal text. |
| QdrantVectorService.PayloadRoundTrip | PdfSemanticSearchDemo/Services/QdrantVectorService.cs:77-84 | Round trip: the payload stored for a chunk decodes to that chunk's content, file name and page number. |
| QdrantVectorService.StoredChunksDecode | PdfSemanticSearchDemo/Services/QdrantVectorService.cs:142-172 | Hits that carry stored chunks' payloads decode one for one, in order, to those chunks. |
| QdrantVectorService.PageNumberDefaults | PdfSemanticSearchDemo/Services/QdrantVectorService.cs:151-154 | How a stored page number decodes. A missing entry gives 0. An integer gives itself when it fits in 32 bits and 0 otherwise. A boolean gives 0, and so does text holding a character no number can contain. |
| QdrantVectorService.ParsePageNumber | PdfSemanticSearchDemo/Services/QdrantVectorService.cs:154 | `int.TryParse` with its out value used even on failure. The result is a 32-bit integer. It is 0 when the text holds a character no number can contain. The decimal text of an integer gives that integer when it fits in 32 bits and 0 otherwise. |
| QdrantVectorService.DecodeAllAppend | PdfSemanticSearchDemo/Services/QdrantVectorService.cs:142-172 | Decoding keeps store order: it distributes over concatenation of the hit list. |
| QdrantVectorService.DecodeSkipsFaulty | PdfSemanticSearchDemo/Services/QdrantVectorService.cs:144-171 | A hit that fails to parse is skipped without affecting its neighbours. |
| QdrantVectorService.Search | PdfSemanticSearchDemo/Services/QdrantVectorService.cs:103-182 | The collection info is read first. An empty collection returns no results and makes no further call. Otherwise the query is embedded, and the nearest-neighbour search uses score threshold 0 and the limit cast to ulong. The search raises exactly when the info read raises, or the collection is not empty and the embedding raises, the embedding is empty, or the nearest-neighbour search raises. The calls made are fixed on every path: only the info read when it raises; the info read and the embedding when the embedding raises or is empty; all three, the search with the embedding as its vector, otherwise. A null hit list gives no results. There are never more results than hits. |
| QdrantVectorService.LimitAsUlong | PdfSemanticSearchDemo/Services/QdrantVectorService.cs:130 | `(ulong)limit` wraps modulo 2^64: a non-negative limit is kept and a negative one becomes 2^64 + limit. |
| QdrantVectorService.SearchIgnoresThreshold | PdfSemanticSearchDemo/Services/QdrantVectorService.cs:103-130 | The caller's threshold has no effect on the calls or the results. |
| QdrantVectorService.SearchDecodes | PdfSemanticSearchDemo/Services/QdrantVectorService.cs:110-175 | On a non-empty collection a successful search makes exactly the info, embed and search calls and returns the decoded hits. |
| RagService.ExcerptsAppend | PdfSemanticSearchDemo/Services/RagService.cs:88-94 | The context loop distributes over concatenation of the documents, numbering the second part on from the first. |
| RagService.ExcerptPosition | PdfSemanticSearchDemo/Services/RagService.cs:88-94 | Document i appears as "Document i+1 (from file, page n):" plus its content, between the excerpts of the documents before it and those after it. |
| RagService.Excerpt | PdfSemanticSearchDemo/Services/RagService.cs:90-93 | Definition of the three `AppendLine` calls for one document: "Document n (from file, page p):", the content, and an empty line. Its place in the prompt is stated by `RagService.PromptListsSources`. |
| RagService.ContextText | PdfSemanticSearchDemo/Services/RagService.cs:84-94 | Definition of the context text: the header line, an empty line, then the excerpts numbered from 1. Its layout is stated by `RagService.PromptListsSources`. |
| RagService.UserPrompt | PdfSemanticSearchDemo/Services/RagService.cs:109 | Definition of the user message: the context, "\n\nQuestion: ", the query (a null query reads as empty) and the closing instruction. Its layout is stated by `RagService.PromptListsSources`. |
| RagService.PromptListsSources | PdfSemanticSearchDemo/Services/RagService.cs:84-109 | The model sees every retrieved source, numbered in order, before the question. For each i, excerpt i+1 sits in the user message at offset header + two line breaks + the excerpts before it, and the query sits after every excerpt. |
| RagService.ChatRequestFor | PdfSemanticSearchDemo/Services/RagService.cs:112-128 | Definition of the chat request built for a query and its context. Its shape is stated by `RagService.ChatRequestShape`. |
| RagService.ChatRequestShape | PdfSemanticSearchDemo/Services/RagService.cs:112-128 | The request has the system message, then the user message whose text is exactly `UserPrompt` for the query and the retrieved documents (laid out as `RagService.PromptListsSources` states). It uses the default model without streaming and the default options except temperature 0.3. |
| RagService.DeserializeChatResponse | PdfSemanticSearchDemo/Services/RagService.cs:151-154 | Deserialisation raises exactly on malformed JSON. An object without `message` gets the default message. |
| RagService.GenerateAnswer | PdfSemanticSearchDemo/Services/RagService.cs:79-170 | A failed send or body read gives the exception apology. A non-success status gives the status apology. Malformed JSON gives the exception apology. |
| RagService.GeneratorOutcomes | PdfSemanticSearchDemo/Services/RagService.cs:141-168 | The generator never fails. When a successful reply carries content, the answer is that content trimmed. Otherwise the answer is one of the three fixed apologies. |
| RagService.EmptyAnswerOnSuccess | PdfSemanticSearchDemo/Services/RagService.cs:151-159 | A successful reply without `message`, or with blank content, gives the empty answer. |
| RagService.EmptyReplyApologyCases | PdfSemanticSearchDemo/Services/RagService.cs:156-163 | The empty-reply apology comes exactly from a null body, a null message or a null content on a successful reply, or from content that trims to that text. |
| RagService.SearchWithRag | PdfSemanticSearchDemo/Services/RagService.cs:23-77 | The query is always echoed and retrieval is always called first. Success holds exactly when retrieval returns. No results gives the fixed no-information answer, without a chat call or a timing. A retrieval failure gives the generic error message. With results, one chat call is made on those results and sources are included on request. |
| RagService.ResponseTimeRecorded | PdfSemanticSearchDemo/Services/RagService.cs:42-73 | The response time is recorded on every path except the no-results one. |
| RagService.NonEmptyRetrievalSucceeds | PdfSemanticSearchDemo/Services/RagService.cs:52-64 | With results, the response succeeds with no error message, whatever the chat server does. |
| RagService.RetrievalFailureReported | PdfSemanticSearchDemo/Services/RagService.cs:30-75 | Composed with the vector search, the response reports failure exactly when the info read raises, or the collection is not empty and the embedding raises, is empty, or the nearest-neighbour search raises. A failed response carries the generic error message and no answer. |
| RagService.SuccessWithEmptyAnswer | PdfSemanticSearchDemo/Services/RagService.cs:52-64 | A successful response can carry an empty generated answer. |
| DocumentController.UploadPdf | PdfSemanticSearchDemo/Controllers/DocumentController.cs:23-88 | A missing or empty file gives 400 "No file provided" with no call. A null content type gives 500. A non-PDF type (ASCII-case-insensitive) gives 400 with no call. Extraction comes before any store call, and the store is called only with a non-empty chunk list. 200 holds exactly with Success, carrying the chunk count and the success message. |
| DocumentController.UploadStatus | PdfSemanticSearchDemo/Controllers/DocumentController.cs:27-87 | 200 exactly when the file is acceptable, chunks are extracted and the store succeeds. 400 exactly for a missing, empty or non-PDF file or a PDF without text. |
| DocumentController.NoTextNotStored | PdfSemanticSearchDemo/Controllers/DocumentController.cs:51-58 | Zero chunks gives 400 "No text content found in PDF", and the store is never called. |
| DocumentController.ContentTypeIgnoresCase | PdfSemanticSearchDemo/Controllers/DocumentController.cs:36 | Every content type equal to "application/pdf" up to ASCII case is treated exactly like "application/pdf". "Application/PDF" is one. |
| DocumentController.BlankPdfRefused | PdfSemanticSearchDemo/Controllers/DocumentController.cs:49-58 | With the real extractor, a PDF whose pages are all null or blank is refused with 400 before the store. |
| DocumentController.UploadCountsPages | PdfSemanticSearchDemo/Controllers/DocumentController.cs:49-77 | With the real extractor, whatever the store answers, upload succeeds exactly when the pages have chunks and the store reports success, and ChunksProcessed is then their total. Whenever there are chunks, the extracted records are exactly what is stored. |
| DocumentController.Search | PdfSemanticSearchDemo/Controllers/DocumentController.cs:91-111 | A null or blank query gives 400 "Search query cannot be empty" with no call. Otherwise one search call is made with the query, limit and threshold. 200 holds exactly when it returns, and the results pass through unchanged. A failure gives 500 with a message. |
| DocumentController.SearchThroughStore | PdfSemanticSearchDemo/Controllers/DocumentController.cs:95-104 | Composed with the vector search: an empty collection gives no results, and a successful search passes the decoded hits through unchanged. |
| DocumentController.DefaultSearchRefused | PdfSemanticSearchDemo/Models/DocumentChunk.cs:16 | A request that keeps the default (empty) query is refused with 400 "Search query cannot be empty" and no search call, whatever its limit and threshold. |
| RagController.SearchWithRag | PdfSemanticSearchDemo/Controllers/RagController.cs:21-56 | A blank query gives 400 with Success false, "Search query cannot be empty", the query echoed, and no forwarding. 200 holds exactly when the service returns a successful response. The service's response is passed on unchanged, as 500 when Success is false. An exception gives 500 with the generic message and the query echoed. |
| RagController.StatusCases | PdfSemanticSearchDemo/Controllers/RagController.cs:25-55 | The status is 200, 400 or 500. 400 means exactly a blank query. 500 means exactly a raised or unsuccessful service call. |
| RagController.ThroughOrchestrator | PdfSemanticSearchDemo/Controllers/RagController.cs:37-44 | Composed with the orchestrator: a non-blank query gets 200 exactly when retrieval works, with the orchestrator's response as body. A blank query reaches neither retrieval nor the chat model. |
| RagController.DefaultRequestRefused | PdfSemanticSearchDemo/Models/RagModels.cs:5 | A request that keeps the default (empty) query is refused with 400, the empty-query error echoing it, and is not forwarded, whatever its other fields. |
| Text.Trim | PdfSemanticSearchDemo/Services/PdfService.cs:54 | The result is the slice of the input that starts after its leading white space, with only white space after it. It is empty exactly when the input is all white space, and otherwise starts and ends with a non-white character. An already trimmed string is unchanged. |
| Text.IsWhiteSpace | PdfSemanticSearchDemo/Services/PdfService.cs:54 | Definition of `char.IsWhiteSpace`: the Unicode space, line and paragraph separators with U+0009..U+000D, U+0085 and U+00A0. |
| Text.IsNullOrWhiteSpace | PdfSemanticSearchDemo/Services/PdfService.cs:24 | Definition of `string.IsNullOrWhiteSpace`: null, or every character white space. |
| Text.Utf16Length | PdfSemanticSearchDemo/Services/PdfService.cs:57 | Definition of `string.Length` in UTF-16 code units: a character outside the Basic Multilingual Plane counts twice. |
| Text.IntToDecimal | PdfSemanticSearchDemo/Services/QdrantVectorService.cs:191 | Definition of `long.ToString()`: an optional "-" and the decimal digits without leading zeros. `Text.IntDecimalRoundTrip` states that it parses back. |
| Text.TryParseInt32 | PdfSemanticSearchDemo/Services/QdrantVectorService.cs:154 | `int.TryParse` with `NumberStyles.Integer`. A success is a 32-bit value, and null or empty text fails. |
| Text.ParsedChars | PdfSemanticSearchDemo/Services/QdrantVectorService.cs:154 | Text that parses holds only digits, signs, number white space and trailing NUL characters. |
| Text.EqualsIgnoreCase | PdfSemanticSearchDemo/Controllers/DocumentController.cs:36 | Definition of the ordinal case-insensitive equality: the same length and equal characters after ASCII upper-casing. |
| Text.IntDecimalRoundTrip | PdfSemanticSearchDemo/Services/QdrantVectorService.cs:191 | Inverse: parsing the decimal text of an integer gives the integer back when it fits in 32 bits, and fails otherwise. |

## Left out

- Text extraction by iText (`PdfReader`, `PdfTextExtractor`) is not modelled. A document is given as the list of its page texts.
- The Ollama embedding service is an abstract outcome per request. `OllamaService.cs` is not part of this model.
- The minimal-API endpoints in `Endpoints/` and `Program.cs` are left out. They repeat the controller ladders with a different error rendering and wire the services together.
- `RandomHelper` is left out. Each chunk's point id is an arbitrary 64-bit value.
- The `Health` actions are left out: they return a constant.
- Logging, `async`/`await` and cancellation are left out: none of them affects a result.
- Floating-point values (embeddings, scores, thresholds, sampling options, elapsed milliseconds) are opaque reals. No modelled branch depends on their value. The stopwatch is modelled only as whether a reading was stored.
- `DateTime` values and their ISO "O" text are opaque. A `DoubleValue`'s text and the text of other payload kinds are carried in the model as given.
- JSON serialisation of the chat request is not modelled: the request is kept as a value. Deserialisation of the reply is modelled only for the fields the code reads.
- Model binding by ASP.NET is left out: a missing request body is not modelled, and neither is the automatic 400 for an invalid one.
- Text.IntToDecimal: the sign is always "-", as in the invariant culture. `ToString()` uses the current culture's negative sign, and other cultures are not modelled.
- Text.TryParseInt32: only "-" and "+" are accepted as signs, as in the invariant culture. `int.TryParse` uses the current culture's sign strings, and other cultures are not modelled. Trailing NUL characters are accepted, as .NET does.
- Text.EqualsIgnoreCase: case folding covers ASCII letters only, not the full ordinal upper-casing table. This is enough for "application/pdf".
- QdrantVectorService.Search: a null embedding is folded into "embedding request raises". The code throws the same exception for a null and an empty vector.
- QdrantVectorService.StoreDocumentChunks: the contents of the collection after an upsert are not modelled. Only the upsert call and its points are recorded.

## Notes on the source

- **Chunk size.** A chunk can be longer than `maxChunkSize`. The size guard counts one separator character where ". " adds two, and it does not count the final ".". A chunk of several sentences can therefore reach `maxChunkSize + 2` (`PdfService.ChunkLengthBound`, `PdfService.ChunkBoundReached`). A single sentence longer than the limit becomes a chunk of its own, whatever its length. The model follows the code.
- **Empty answers.** A successful RAG response can carry an empty answer. `GenerateAnswerAsync` returns the trimmed content of any successful reply, and that is `""` when the reply has no `message` (the property default) or only blank content (`RagService.SuccessWithEmptyAnswer`). The model follows the code.

=== FILE: document_controller.dfy ===
/** DocumentController: the decision ladders of `UploadPdf` and `Search`.

    Each action is a function from the request and the outcomes of the
    services it calls to the status code, the response body and the
    calls made, in order.  A service that raises is `Throws`; the
    controller's `catch` turns that into a 500. */
module DocumentController {
  import opened Outcomes
  import opened Text
  import opened Models
  import PdfService
  import QdrantVectorService

  const NoFileMessage: string := "No file provided"
  const OnlyPdfMessage: string := "Only PDF files are supported"
  const NoTextMessage: string := "No text content found in PDF"
  const StoreFailedMessage: string := "Failed to store document in vector database"
  const UploadErrorMessage: string := "Internal server error occurred while processing the PDF"
  const EmptyQueryMessage: string := "Search query cannot be empty"
  const SearchErrorMessage: string := "Internal server error occurred while searching"
  const PdfContentType: string := "application/pdf"

  /** The uploaded form file: its length in bytes, its declared content
      type (`None` when the client sent none) and its file name. */
  datatype FormFile = FormFile(length: int, contentType: Option<string>, fileName: string)

  /** The service calls the controller makes. */
  datatype DocCall =
    | Extract(fileName: string)
    | Store(chunks: seq<DocumentChunk>)
    | Find(query: Option<string>, limit: int, threshold: Float)

  // ---------------------------------------------------------------------
  // UploadPdf

  datatype UploadRun = UploadRun(status: int, body: UploadResponse, calls: seq<DocCall>)

  /** A failure response: `Success` stays false, `ChunksProcessed` 0. */
  function Failure(status: int, message: string, calls: seq<DocCall>): UploadRun {
    UploadRun(status, DefaultUploadResponse.(message := message), calls)
  }

  /** The success message, with the count and the file name. */
  function SuccessMessage(count: nat, fileName: string): string {
    "Successfully processed " + IntToDecimal(count) + " text chunks from " + fileName
  }

  /** `UploadPdf`.  `file` is `None` when no file was bound; `extraction`
      is what `ExtractTextFromPdfAsync` gives back and `store` what
      `StoreDocumentChunksAsync` gives back. */
  function UploadPdf(file: Option<FormFile>, extraction: Outcome<seq<DocumentChunk>>, store: Outcome<bool>)
    : (r: UploadRun)
    ensures r.status in {200, 400, 500}
    ensures r.body.success <==> r.status == 200
    ensures file.None? || file.value.length == 0 ==> r == Failure(400, NoFileMessage, [])
    ensures file.Some? && file.value.length != 0 && file.value.contentType.None? ==>
              r == Failure(500, UploadErrorMessage, [])
    ensures file.Some? && file.value.length != 0 && file.value.contentType.Some?
            && !EqualsIgnoreCase(file.value.contentType.value, PdfContentType) ==>
              r == Failure(400, OnlyPdfMessage, [])
    ensures r.calls != [] ==> r.calls[0] == Extract(file.value.fileName)
                              && file.value.contentType.Some?
                              && EqualsIgnoreCase(file.value.contentType.value, PdfContentType)
    ensures |r.calls| <= 2
    ensures |r.calls| == 2 <==> r.calls != [] && extraction.Returns? && extraction.value != []
    ensures |r.calls| == 2 ==> r.calls[1] == Store(extraction.value)
    ensures r.status == 200 ==>
              && extraction.Returns? && store == Returns(true)
              && r.body.chunksProcessed == |extraction.value|
              && r.body.message == SuccessMessage(|extraction.value|, file.value.fileName)
  {
    match file
    case None => Failure(400, NoFileMessage, [])
    case Some(f) =>
      if f.length == 0 then Failure(400, NoFileMessage, [])
      else if f.contentType.None? then Failure(500, UploadErrorMessage, [])
      else if !EqualsIgnoreCase(f.contentType.value, PdfContentType) then Failure(400, OnlyPdfMessage, [])
      else
        var extract := [Extract(f.fileName)];
        match extraction
        case Throws => Failure(500, UploadErrorMessage, extract)
        case Returns(chunks) =>
          if |chunks| == 0 then Failure(400, NoTextMessage, extract)
          else
            var calls := extract + [Store(chunks)];
            match store
            case Throws => Failure(500, UploadErrorMessage, calls)
            case Returns(false) => Failure(500, StoreFailedMessage, calls)
            case Returns(true) =>
              UploadRun(200, UploadResponse(true, SuccessMessage(|chunks|, f.fileName), |chunks|), calls)
  }

  /** A file that passes the checks at the door. */
  predicate Acceptable(file: Option<FormFile>) {
    && file.Some? && file.value.length != 0 && file.value.contentType.Some?
    && EqualsIgnoreCase(file.value.contentType.value, PdfContentType)
  }

  /** Which outcome gives which status: 200 exactly when the file is
      acceptable, extraction gives chunks and the store reports success;
      400 exactly for a missing, empty or non-PDF file or a document
      without text. */
  lemma UploadStatus(file: Option<FormFile>, extraction: Outcome<seq<DocumentChunk>>, store: Outcome<bool>)
    ensures var r := UploadPdf(file, extraction, store);
            && (r.status == 200 <==> Acceptable(file) && extraction.Returns? && extraction.value != []
                                     && store == Returns(true))
            && (r.status == 400 <==> (file.None? || file.value.length == 0)
                                     || (file.value.contentType.Some?
                                         && !EqualsIgnoreCase(file.value.contentType.value, PdfContentType))
                                     || (Acceptable(file) && extraction == Returns([])))
  {
  }

  /** A document without text is refused with 400 and nothing is stored. */
  lemma NoTextNotStored(file: Option<FormFile>, store: Outcome<bool>)
    requires Acceptable(file)
    ensures UploadPdf(file, Returns([]), store) == Failure(400, NoTextMessage, [Extract(file.value.fileName)])
  {
  }

  /** The content type is compared without regard to ASCII case: any
      spelling of "application/pdf" is handled exactly like it, and
      "Application/PDF" is one. */
  lemma ContentTypeIgnoresCase(length: int, contentType: string, fileName: string,
                               extraction: Outcome<seq<DocumentChunk>>, store: Outcome<bool>)
    requires length != 0 && EqualsIgnoreCase(contentType, PdfContentType)
    ensures UploadPdf(Some(FormFile(length, Some(contentType), fileName)), extraction, store)
         == UploadPdf(Some(FormFile(length, Some(PdfContentType), fileName)), extraction, store)
    ensures EqualsIgnoreCase("Application/PDF", PdfContentType)
  {
    assert EqualsIgnoreCase(PdfContentType, PdfContentType);
    assert EqualsIgnoreCase("Application/PDF", PdfContentType);
  }

  /** No page has any chunk. */
  lemma {:induction false} NoChunksCount(chunked: seq<seq<string>>)
    requires forall p :: 0 <= p < |chunked| ==> chunked[p] == []
    ensures PdfService.ChunkCount(chunked) == 0
    decreases |chunked|
  {
    if chunked != [] {
      NoChunksCount(chunked[..|chunked| - 1]);
    }
  }

  /** Uploading a PDF whose pages are all null or blank is refused as a
      document without text, before the store is called. */
  lemma BlankPdfRefused(file: Option<FormFile>, pages: seq<Option<string>>, clock: nat -> Instant,
                        store: Outcome<bool>)
    requires Acceptable(file)
    requires forall p :: 0 <= p < |pages| ==> IsNullOrWhiteSpace(pages[p])
    ensures var chunks := PdfService.ExtractTextFromPdf(pages, file.value.fileName, clock);
            UploadPdf(file, Returns(chunks), store) == Failure(400, NoTextMessage, [Extract(file.value.fileName)])
  {
    var chunked := PdfService.PagesChunks(pages);
    NoChunksCount(chunked);
    PdfService.ExtractCount(pages, file.value.fileName, clock);
  }

  /** With the real extractor, an upload succeeds exactly when the pages
      have chunks and the store reports success; it then reports the chunk
      count of every page together.  Whenever there are chunks, exactly the
      extracted records are handed to the store. */
  lemma UploadCountsPages(file: Option<FormFile>, pages: seq<Option<string>>, clock: nat -> Instant,
                          store: Outcome<bool>)
    requires Acceptable(file)
    ensures var chunks := PdfService.ExtractTextFromPdf(pages, file.value.fileName, clock);
            var r := UploadPdf(file, Returns(chunks), store);
            var n := PdfService.ChunkCount(PdfService.PagesChunks(pages));
            && (r.status == 200 <==> n > 0 && store == Returns(true))
            && (r.status == 200 ==> r.body.chunksProcessed == n)
            && (n > 0 ==> r.calls == [Extract(file.value.fileName), Store(chunks)])
  {
    PdfService.ExtractCount(pages, file.value.fileName, clock);
  }

  // ---------------------------------------------------------------------
  // Search

  /** The body of a search response: the results, or a plain message. */
  datatype SearchBody = Results(results: seq<SearchResult>) | Message(text: string)

  datatype SearchRun = SearchRun(status: int, body: SearchBody, calls: seq<DocCall>)

  /** `Search`.  `results` is what `SearchAsync` gives back. */
  function Search(request: SearchRequest, results: Outcome<seq<SearchResult>>): (r: SearchRun)
    ensures IsNullOrWhiteSpace(request.query) ==> r == SearchRun(400, Message(EmptyQueryMessage), [])
    ensures !IsNullOrWhiteSpace(request.query) ==>
              r.calls == [Find(request.query, request.limit, request.threshold)]
    ensures r.status == 200 <==> !IsNullOrWhiteSpace(request.query) && results.Returns?
    ensures r.status == 200 ==> r.body == Results(results.value)
    ensures r.status != 200 ==> r.body.Message?
  {
    if IsNullOrWhiteSpace(request.query) then SearchRun(400, Message(EmptyQueryMessage), [])
    else
      var calls := [Find(request.query, request.limit, request.threshold)];
      match results
      case Throws => SearchRun(500, Message(SearchErrorMessage), calls)
      case Returns(rs) => SearchRun(200, Results(rs), calls)
  }

  /** Composed with the vector search: an empty collection gives 200 with
      no results; otherwise a successful search returns the decoded hits
      unchanged, whatever the threshold. */
  lemma SearchThroughStore(request: SearchRequest, count: nat, v: Vector, hits: seq<QdrantVectorService.Hit>)
    requires !IsNullOrWhiteSpace(request.query)
    ensures var run := QdrantVectorService.Search(request.query, request.limit, request.threshold,
                                                  Returns(0), Returns(v), Returns(Some(hits)));
            Search(request, run.result).body == Results([])
    ensures count > 0 && v != [] ==>
              var run := QdrantVectorService.Search(request.query, request.limit, request.threshold,
                                                    Returns(count), Returns(v), Returns(Some(hits)));
              Search(request, run.result) == SearchRun(200, Results(QdrantVectorService.DecodeAll(hits)),
                                                       [Find(request.query, request.limit, request.threshold)])
  {
    if count > 0 && v != [] {
      QdrantVectorService.SearchDecodes(request.query, request.limit, request.threshold, count, v, hits);
    }
  }

  /** A request that leaves the query at its default (empty) value is
      refused with 400 and no search call, whatever its limit and threshold. */
  lemma DefaultSearchRefused(limit: int, threshold: Float, results: Outcome<seq<SearchResult>>)
    ensures var request := DefaultSearchRequest.(limit := limit, threshold := threshold);
            Search(request, results) == SearchRun(400, Message(EmptyQueryMessage), [])
  {
  }
}

=== FILE: models.dfy ===
/** The data classes of the backend as immutable values, each with the
    default values its C# property initialisers give it.

    Floating-point quantities (embeddings, scores, thresholds, sampling
    options) are kept as opaque `real`s: no branch of the modelled code
    depends on their value.  A C# `string` that can come out of JSON as
    null is an `Option<string>`. */
module Models {
  import opened Outcomes

  /** A `float` or `double`, never inspected by the modelled code. */
  type Float = real

  /** An embedding vector (`float[]`). */
  type Vector = seq<Float>

  /** A `DateTime`, represented by its round-trip ("O") text. */
  datatype Instant = Instant(roundTrip: string)

  // ---------------------------------------------------------------------
  // DocumentChunk.cs

  /** One retrievable unit of a document.  `embedding` stays `None` until
      the vector store attaches one. */
  datatype DocumentChunk = DocumentChunk(
    id: nat,
    content: string,
    fileName: string,
    pageNumber: int,
    chunkIndex: int,
    createdAt: Instant,
    embedding: Option<Vector>)

  /** `new DocumentChunk()` at the moment `now`. */
  function NewDocumentChunk(now: Instant): DocumentChunk {
    DocumentChunk(0, "", "", 0, 0, now, None)
  }

  datatype SearchRequest = SearchRequest(query: Option<string>, limit: int, threshold: Float)

  const DefaultSearchRequest: SearchRequest := SearchRequest(Some(""), 10, 0.7)

  datatype SearchResult = SearchResult(id: string, content: string, fileName: string, pageNumber: int, score: Float)

  const DefaultSearchResult: SearchResult := SearchResult("", "", "", 0, 0.0)

  datatype UploadResponse = UploadResponse(success: bool, message: string, chunksProcessed: int)

  const DefaultUploadResponse: UploadResponse := UploadResponse(false, "", 0)

  // ---------------------------------------------------------------------
  // RagModels.cs

  datatype RagSearchRequest = RagSearchRequest(
    query: Option<string>,
    maxResults: int,
    threshold: Float,
    includeSourceDocuments: bool)

  const DefaultRagSearchRequest: RagSearchRequest := RagSearchRequest(Some(""), 5, 0.3, true)

  /** Whether the stopwatch reading was ever stored in `ResponseTimeMs`. */
  datatype Timing = NotMeasured | Measured(ms: Float)

  datatype RagSearchResponse = RagSearchResponse(
    generatedAnswer: string,
    sourceDocuments: seq<SearchResult>,
    query: Option<string>,
    tokensUsed: int,
    responseTime: Timing,
    success: bool,
    errorMessage: string)
  {
    /** The `ResponseTimeMs` property: 0 until a reading is stored. */
    function ResponseTimeMs(): Float {
      match responseTime
      case NotMeasured => 0.0
      case Measured(ms) => ms
    }
  }

  const DefaultRagSearchResponse: RagSearchResponse :=
    RagSearchResponse("", [], Some(""), 0, NotMeasured, true, "")

  datatype ChatMessage = ChatMessage(role: Option<string>, content: Option<string>)

  const DefaultChatMessage: ChatMessage := ChatMessage(Some(""), Some(""))

  datatype ChatOptions = ChatOptions(temperature: Float, numCtx: int, topK: int, topP: Float)

  const DefaultChatOptions: ChatOptions := ChatOptions(0.7, 4096, 40, 0.9)

  datatype OllamaChatRequest = OllamaChatRequest(
    model: string,
    messages: seq<ChatMessage>,
    stream: bool,
    options: Option<ChatOptions>)

  const DefaultOllamaChatRequest: OllamaChatRequest := OllamaChatRequest("llama3.2", [], false, None)

  datatype OllamaChatResponse = OllamaChatResponse(
    message: Option<ChatMessage>,
    done: bool,
    createdAt: Option<string>,
    model: Option<string>)

  const DefaultOllamaChatResponse: OllamaChatResponse :=
    OllamaChatResponse(Some(DefaultChatMessage), false, Some(""), Some(""))
}

=== FILE: outcomes.dfy ===
/** Failure-carrying wrappers used throughout the model.

    `Option` stands for a C# reference that may be null; `Outcome` stands for
    a call that either returns a value or raises.  Every catch block in the
    modelled services catches `Exception` as a whole, so a single `Throws`
    case is enough to describe what the callers observe. */
module Outcomes {

  datatype Option<+T> = None | Some(value: T) {

    /** The value, or `default` when absent. */
    function GetOr(default: T): T {
      match this
      case Some(v) => v
      case None => default
    }
  }

  /** The observable result of a call that may raise an exception. */
  datatype Outcome<+T> = Returns(value: T) | Throws
}

=== FILE: pdf_service.dfy ===
/** PdfService: the sentence chunker `SplitTextIntoChunks` and the per-page
    loop of `ExtractTextFromPdfAsync`.

    Text extraction itself belongs to the PDF library and is not modelled: a
    document is the sequence of its page texts (`None` for a page whose text
    is null), page 1 first.

    The chunker is given twice.  `Chunks` is the reference: the trimmed
    sentences are grouped greedily (`PackGroups`) and each group is rendered
    as its sentences joined by ". " plus a final ".".  The method
    `SplitTextIntoChunks` follows the C# loop with its string buffer and is
    proved to compute `Chunks`. */
module PdfService {
  import opened Outcomes
  import opened Text
  import opened Models

  /** The chunk size the per-page driver asks for. */
  const PageChunkSize: int := 500

  // ---------------------------------------------------------------------
  // Splitting into sentences

  predicate IsTerminator(c: char) {
    c == '.' || c == '!' || c == '?'
  }

  predicate NoTerminator(s: string) {
    forall k :: 0 <= k < |s| ==> !IsTerminator(s[k])
  }

  function TerminatorCount(s: string): nat
    decreases |s|
  {
    if s == [] then 0 else (if IsTerminator(s[0]) then 1 else 0) + TerminatorCount(s[1..])
  }

  /** `s` with its terminators deleted. */
  function WithoutTerminators(s: string): string
    decreases |s|
  {
    if s == [] then [] else (if IsTerminator(s[0]) then [] else [s[0]]) + WithoutTerminators(s[1..])
  }

  /** The terminators of `s`, in order. */
  function TerminatorsOf(s: string): (r: string)
    ensures |r| == TerminatorCount(s)
    ensures forall k :: 0 <= k < |r| ==> IsTerminator(r[k])
    decreases |s|
  {
    if s == [] then [] else (if IsTerminator(s[0]) then [s[0]] else []) + TerminatorsOf(s[1..])
  }

  /** `ps[0] + [ts[0]] + ps[1] + … + [ts[|ts| - 1]] + ps[|ts|]`: the pieces
      with the separators put back between them. */
  function Interleave(ps: seq<string>, ts: string): string
    requires |ps| == |ts| + 1
    decreases |ts|
  {
    if ts == [] then ps[0] else ps[0] + [ts[0]] + Interleave(ps[1..], ts[1..])
  }

  /** What `Split` promises: one more piece than there are terminators, no
      piece holds a terminator, and putting the terminators back between
      the pieces, in order, gives `s` again. */
  predicate SplitsInto(r: seq<string>, s: string) {
    SplitOf(r, s) && Flatten(r) == WithoutTerminators(s)
  }

  /** `r` splits `s` at its terminators: one more piece than there are
      terminators, none holding a terminator, and the terminators put back
      between them, in order, give `s`. */
  predicate SplitOf(r: seq<string>, s: string) {
    && |r| == TerminatorCount(s) + 1
    && (forall k :: 0 <= k < |r| ==> NoTerminator(r[k]))
    && Interleave(r, TerminatorsOf(s)) == s
  }

  /** `s.Split(new[] { '.', '!', '?' })`: the pieces between terminators,
      empty pieces included.  Every split falls exactly at a terminator. */
  function Pieces(s: string): (r: seq<string>)
    ensures |r| == TerminatorCount(s) + 1
    ensures Flatten(r) == WithoutTerminators(s)
    ensures forall k :: 0 <= k < |r| ==> NoTerminator(r[k])
    ensures Interleave(r, TerminatorsOf(s)) == s
    decreases |s|
  {
    if s == [] then [""]
    else
      var rest := Pieces(s[1..]);
      assert SplitsInto(rest, s[1..]);
      if IsTerminator(s[0]) then
        SplitAtTerminator(s, rest);
        [""] + rest
      else
        SplitInsidePiece(s, rest);
        [[s[0]] + rest[0]] + rest[1..]
  }

  /** A leading terminator closes an empty first piece. */
  lemma SplitAtTerminator(s: string, rest: seq<string>)
    requires s != [] && IsTerminator(s[0]) && SplitsInto(rest, s[1..])
    ensures SplitsInto([""] + rest, s)
  {
    var r := [""] + rest;
    assert r[1..] == rest;
    InterleaveNewPiece(s[0], rest, TerminatorsOf(s[1..]), s[1..]);
    assert TerminatorsOf(s) == [s[0]] + TerminatorsOf(s[1..]);
    assert s == [s[0]] + s[1..];
    assert forall k :: 1 <= k < |r| ==> r[k] == rest[k - 1];
  }

  /** Any other leading character joins the first piece. */
  lemma SplitInsidePiece(s: string, rest: seq<string>)
    requires s != [] && !IsTerminator(s[0]) && SplitsInto(rest, s[1..])
    ensures SplitsInto([[s[0]] + rest[0]] + rest[1..], s)
  {
    var first := [s[0]] + rest[0];
    var r := [first] + rest[1..];
    FlattenExtendFirst(s[0], rest);
    assert TerminatorsOf(s) == TerminatorsOf(s[1..]);
    InterleaveExtendFirst(s[0], rest, TerminatorsOf(s[1..]), s[1..]);
    assert s == [s[0]] + s[1..];
    assert NoTerminator(first) by {
      assert forall j :: 1 <= j < |first| ==> first[j] == rest[0][j - 1];
    }
    assert forall k :: 1 <= k < |r| ==> r[k] == rest[k];
  }

  /** `Split` is determined by what it promises: any split of `s` at its
      terminators is `Pieces(s)`. */
  lemma {:induction false} PiecesUnique(s: string, ps: seq<string>)
    requires SplitOf(ps, s)
    ensures ps == Pieces(s)
    decreases |s|
  {
    if s == [] {
      assert ps == [ps[0]];
    } else if IsTerminator(s[0]) {
      UniqueAtTerminator(s, ps);
      PiecesUnique(s[1..], ps[1..]);
      assert ps == [""] + ps[1..];
    } else {
      var ps' := UniqueInsidePiece(s, ps);
      PiecesUnique(s[1..], ps');
    }
  }

  /** The first character of an interleaving comes from the first piece,
      or from the first separator when that piece is empty. */
  lemma InterleaveFirst(ps: seq<string>, ts: string)
    requires |ps| == |ts| + 1 && Interleave(ps, ts) != []
    ensures ps[0] != [] ==> Interleave(ps, ts)[0] == ps[0][0]
    ensures ps[0] == [] ==> ts != [] && Interleave(ps, ts)[0] == ts[0]
  {
    if ts != [] {
      assert Interleave(ps, ts) == ps[0] + ([ts[0]] + Interleave(ps[1..], ts[1..]));
    }
  }

  /** A split of a text that starts with a terminator has an empty first
      piece, and its other pieces split the rest. */
  lemma UniqueAtTerminator(s: string, ps: seq<string>)
    requires s != [] && IsTerminator(s[0]) && SplitOf(ps, s)
    ensures ps[0] == [] && SplitOf(ps[1..], s[1..])
  {
    var ts := TerminatorsOf(s);
    assert ts == [s[0]] + TerminatorsOf(s[1..]);
    InterleaveFirst(ps, ts);
    assert ps[0] == [];
    assert s == [ts[0]] + Interleave(ps[1..], ts[1..]);
    assert forall k :: 0 <= k < |ps[1..]| ==> ps[1..][k] == ps[k + 1];
  }

  /** A split of a text that starts with any other character has that
      character at the head of its first piece; without it, the pieces
      split the rest. */
  lemma UniqueInsidePiece(s: string, ps: seq<string>) returns (ps': seq<string>)
    requires s != [] && !IsTerminator(s[0]) && SplitOf(ps, s)
    ensures SplitOf(ps', s[1..]) && ps == [[s[0]] + ps'[0]] + ps'[1..]
  {
    var ts := TerminatorsOf(s);
    assert ts == TerminatorsOf(s[1..]);
    InterleaveFirst(ps, ts);
    assert ps[0] != [];
    assert s == [s[0]] + s[1..];
    ps' := DropFirstChar(s[0], ps, ts, s[1..]);
  }

  /** Taking the leading `x` off the first piece takes it off the
      interleaving. */
  lemma DropFirstChar(x: char, ps: seq<string>, ts: string, tail: string) returns (ps': seq<string>)
    requires |ps| == |ts| + 1 && ps[0] != [] && ps[0][0] == x
    requires forall k :: 0 <= k < |ps| ==> NoTerminator(ps[k])
    requires Interleave(ps, ts) == [x] + tail
    ensures |ps'| == |ps| && ps == [[x] + ps'[0]] + ps'[1..]
    ensures forall k :: 0 <= k < |ps'| ==> NoTerminator(ps'[k])
    ensures Interleave(ps', ts) == tail
  {
    var q := ps[0][1..];
    ps' := [q] + ps[1..];
    assert ps[0] == [x] + q;
    assert ps'[1..] == ps[1..];
    InterleaveExtendFirst(x, ps', ts, Interleave(ps', ts));
    assert ([x] + Interleave(ps', ts))[1..] == Interleave(ps', ts);
    assert ([x] + tail)[1..] == tail;
    assert NoTerminator(q) by {
      assert forall j :: 0 <= j < |q| ==> q[j] == ps[0][j + 1];
    }
    assert forall k :: 1 <= k < |ps'| ==> ps'[k] == ps[k];
  }


  /** Putting `x` in front of the first piece puts it in front of the
      concatenation. */
  lemma FlattenExtendFirst<T>(x: T, ps: seq<seq<T>>)
    requires ps != []
    ensures Flatten([[x] + ps[0]] + ps[1..]) == [x] + Flatten(ps)
  {
    var r := [[x] + ps[0]] + ps[1..];
    assert r[1..] == ps[1..];
    assert Flatten(ps) == ps[0] + Flatten(ps[1..]);
    assert Flatten(r) == ([x] + ps[0]) + Flatten(ps[1..]);
  }

  /** Putting `x` in front of the first piece puts it in front of the
      interleaving. */
  lemma InterleaveExtendFirst(x: char, ps: seq<string>, ts: string, s: string)
    requires |ps| == |ts| + 1 && Interleave(ps, ts) == s
    ensures Interleave([[x] + ps[0]] + ps[1..], ts) == [x] + s
  {
    var r := [[x] + ps[0]] + ps[1..];
    assert r[1..] == ps[1..];
  }

  /** A separator in front starts a new, empty first piece. */
  lemma InterleaveNewPiece(c: char, ps: seq<string>, ts: string, s: string)
    requires |ps| == |ts| + 1 && Interleave(ps, ts) == s
    ensures Interleave([""] + ps, [c] + ts) == [c] + s
  {
    assert ([""] + ps)[1..] == ps;
    assert ([c] + ts)[1..] == ts;
  }

  /** Every character of `p` occurs in `s`. */
  predicate Within(p: string, s: string) {
    forall j :: 0 <= j < |p| ==> p[j] in s
  }

  /** Every character of a piece comes from the split text. */
  lemma {:induction false} PiecesChars(s: string)
    ensures forall k :: 0 <= k < |Pieces(s)| ==> Within(Pieces(s)[k], s)
    decreases |s|
  {
    if s != [] {
      PiecesChars(s[1..]);
      var rest := Pieces(s[1..]);
      var r := Pieces(s);
      forall k | 0 <= k < |rest|
        ensures Within(rest[k], s)
      {
        assert Within(rest[k], s[1..]);
        forall j | 0 <= j < |rest[k]|
          ensures rest[k][j] in s
        {
          assert rest[k][j] in s[1..];
          var i :| 0 <= i < |s[1..]| && s[1..][i] == rest[k][j];
          assert s[i + 1] == rest[k][j];
        }
      }
      if !IsTerminator(s[0]) {
        var first := [s[0]] + rest[0];
        assert r[0] == first;
        forall j | 0 <= j < |first|
          ensures first[j] in s
        {
          if j > 0 {
            assert first[j] == rest[0][j - 1];
          }
        }
      }
    }
  }

  /** `StringSplitOptions.RemoveEmptyEntries`. */
  function RemoveEmpty(ps: seq<string>): (r: seq<string>)
    ensures Flatten(r) == Flatten(ps)
    ensures forall k :: 0 <= k < |r| ==> r[k] != [] && r[k] in ps
    decreases |ps|
  {
    if ps == [] then []
    else
      var head: seq<string> := if ps[0] == [] then [] else [ps[0]];
      var rest := RemoveEmpty(ps[1..]);
      FlattenAppend(head, rest);
      assert Flatten(head) == ps[0] by {
        if head != [] {
          assert head[1..] == [];
        }
      }
      head + rest
  }

  /** The trimmed, non-empty pieces: what the loop body keeps after `Trim`
      and the `IsNullOrEmpty` skip. */
  function KeepTrimmed(ps: seq<string>): seq<string>
    decreases |ps|
  {
    if ps == [] then []
    else
      var t := Trim(ps[0]);
      (if t == [] then [] else [t]) + KeepTrimmed(ps[1..])
  }

  /** The pieces `SplitTextIntoChunks` iterates over. */
  function SplitPieces(text: string): seq<string> {
    RemoveEmpty(Pieces(text))
  }

  /** The sentences of `text`, in order: its non-empty trimmed fragments
      between '.', '!' and '?'. */
  function Sentences(text: string): seq<string> {
    KeepTrimmed(SplitPieces(text))
  }

  /** What a sentence looks like: non-empty, no terminator, trimmed. */
  predicate IsSentence(t: string) {
    && t != []
    && NoTerminator(t)
    && !IsWhiteSpace(t[0]) && !IsWhiteSpace(t[|t| - 1])
  }

  predicate AllSentences(ts: seq<string>) {
    forall k :: 0 <= k < |ts| ==> IsSentence(ts[k])
  }

  lemma {:induction false} KeepTrimmedSentences(ps: seq<string>)
    requires forall k :: 0 <= k < |ps| ==> NoTerminator(ps[k])
    ensures AllSentences(KeepTrimmed(ps))
    decreases |ps|
  {
    if ps != [] {
      var t := Trim(ps[0]);
      TrimSentence(ps[0]);
      assert forall k :: 0 <= k < |ps[1..]| ==> ps[1..][k] == ps[k + 1];
      KeepTrimmedSentences(ps[1..]);
      var head: seq<string> := if t == [] then [] else [t];
      assert KeepTrimmed(ps) == head + KeepTrimmed(ps[1..]);
      AllSentencesAppend(head, KeepTrimmed(ps[1..]));
    }
  }

  /** A piece without terminators trims to nothing or to a sentence. */
  lemma TrimSentence(p: string)
    requires NoTerminator(p)
    ensures Trim(p) == [] || IsSentence(Trim(p))
  {
    TrimNoTerminator(p);
  }

  lemma AllSentencesAppend(a: seq<string>, b: seq<string>)
    requires AllSentences(a) && AllSentences(b)
    ensures AllSentences(a + b)
  {
    forall k | 0 <= k < |a + b|
      ensures IsSentence((a + b)[k])
    {
      if k < |a| { assert (a + b)[k] == a[k]; } else { assert (a + b)[k] == b[k - |a|]; }
    }
  }

  lemma TrimNoTerminator(p: string)
    requires NoTerminator(p)
    ensures NoTerminator(Trim(p))
  {
    var t := Trim(p);
    forall k | 0 <= k < |t|
      ensures !IsTerminator(t[k])
    {
      assert t[k] in p;
      var j :| 0 <= j < |p| && p[j] == t[k];
    }
  }

  /** `KeepTrimmed` one piece at a time, as the loop consumes them. */
  lemma KeepTrimmedStep(ps: seq<string>, i: int)
    requires 0 <= i < |ps|
    ensures KeepTrimmed(ps[i..])
         == (if Trim(ps[i]) == [] then [] else [Trim(ps[i])]) + KeepTrimmed(ps[i + 1..])
  {
    assert ps[i..][0] == ps[i];
    assert ps[i..][1..] == ps[i + 1..];
  }

  /** Every element of `Sentences(text)` is a sentence. */
  lemma SentencesAreSentences(text: string)
    ensures AllSentences(Sentences(text))
  {
    var ps := SplitPieces(text);
    var all := Pieces(text);
    forall k | 0 <= k < |ps|
      ensures NoTerminator(ps[k])
    {
      assert ps[k] in all;
      var j :| 0 <= j < |all| && all[j] == ps[k];
    }
    KeepTrimmedSentences(ps);
  }

  // ---------------------------------------------------------------------
  // Rendering a group of sentences

  /** The sentences of a group joined by ". ", as the buffer accumulates them. */
  function Join(g: seq<string>): (r: string)
    ensures g != [] ==> |r| >= |g[|g| - 1]|
    decreases |g|
  {
    if g == [] then ""
    else if |g| == 1 then g[0]
    else Join(g[..|g| - 1]) + ". " + g[|g| - 1]
  }

  /** A closed chunk: the joined group and a final ".". */
  function Render(g: seq<string>): string {
    Join(g) + "."
  }

  function RenderAll(gs: seq<seq<string>>): (r: seq<string>)
    ensures |r| == |gs|
    ensures forall i :: 0 <= i < |gs| ==> r[i] == Render(gs[i])
  {
    seq(|gs|, i requires 0 <= i < |gs| => Render(gs[i]))
  }

  lemma RenderAllAppend(a: seq<seq<string>>, b: seq<seq<string>>)
    ensures RenderAll(a + b) == RenderAll(a) + RenderAll(b)
  {
  }

  lemma {:induction false} JoinLength(g: seq<string>, t: string)
    requires g != []
    ensures Utf16Length(Join(g + [t])) == Utf16Length(Join(g)) + 2 + Utf16Length(t)
  {
    assert (g + [t])[..|g|] == g;
    Utf16LengthAppend(Join(g), ". ");
    Utf16LengthAppend(Join(g) + ". ", t);
  }

  // ---------------------------------------------------------------------
  // Splitting a chunk back into its sentences

  /** Splits a string at every ". " (the separator `Join` inserts). */
  function SplitSep(s: string): (r: seq<string>)
    ensures |r| >= 1
    decreases |s|
  {
    if s == [] then [""]
    else if |s| >= 2 && s[0] == '.' && s[1] == ' ' then [""] + SplitSep(s[2..])
    else
      var rest := SplitSep(s[1..]);
      [[s[0]] + rest[0]] + rest[1..]
  }

  /** The sentences of one chunk: drop the final '.', split at ". ". */
  function Unrender(c: string): seq<string> {
    SplitSep(if c != [] && c[|c| - 1] == '.' then c[..|c| - 1] else c)
  }

  /** The sentences of a list of chunks, in order. */
  function ChunkSentences(cs: seq<string>): seq<string>
    decreases |cs|
  {
    if cs == [] then [] else Unrender(cs[0]) + ChunkSentences(cs[1..])
  }

  /** ". " cannot straddle the boundary of an inserted separator, so
      splitting distributes over it. */
  lemma {:induction false} SplitSepSeparator(a: string, b: string)
    ensures SplitSep(a + ". " + b) == SplitSep(a) + SplitSep(b)
    decreases |a|
  {
    var s := a + ". " + b;
    if a == [] {
      assert s == ". " + b;
      assert s[2..] == b;
    } else if |a| >= 2 && a[0] == '.' && a[1] == ' ' {
      assert s[2..] == a[2..] + ". " + b;
      SplitSepSeparator(a[2..], b);
    } else {
      assert s[0] == a[0];
      assert |a| == 1 ==> s[1] == '.';
      assert |a| >= 2 ==> s[1] == a[1];
      assert s[1..] == a[1..] + ". " + b;
      SplitSepSeparator(a[1..], b);
      ExtendFirstAppend(a[0], SplitSep(a[1..]), SplitSep(b));
    }
  }

  /** Extending the first element of a concatenation extends the first
      element of its front part. */
  lemma ExtendFirstAppend<T>(x: T, p: seq<seq<T>>, q: seq<seq<T>>)
    requires p != []
    ensures [[x] + (p + q)[0]] + (p + q)[1..] == ([[x] + p[0]] + p[1..]) + q
  {
    assert (p + q)[0] == p[0];
    assert (p + q)[1..] == p[1..] + q;
  }

  lemma {:induction false} SplitSepPlain(x: string)
    requires NoTerminator(x)
    ensures SplitSep(x) == [x]
    decreases |x|
  {
    if x != [] {
      assert !IsTerminator(x[0]);
      assert forall k :: 0 <= k < |x[1..]| ==> x[1..][k] == x[k + 1];
      SplitSepPlain(x[1..]);
      assert [x[0]] + x[1..] == x;
    }
  }

  lemma {:induction false} SplitJoin(g: seq<string>)
    requires g != [] && forall k :: 0 <= k < |g| ==> NoTerminator(g[k])
    ensures SplitSep(Join(g)) == g
    decreases |g|
  {
    if |g| == 1 {
      SplitSepPlain(g[0]);
    } else {
      var init, last := g[..|g| - 1], g[|g| - 1];
      assert g == init + [last];
      assert forall k :: 0 <= k < |init| ==> init[k] == g[k];
      SplitJoin(init);
      SplitSepSeparator(Join(init), last);
      SplitSepPlain(last);
    }
  }

  /** Splitting a rendered group gives the group back. */
  lemma UnrenderRender(g: seq<string>)
    requires g != [] && AllSentences(g)
    ensures Unrender(Render(g)) == g
  {
    var c := Render(g);
    assert c[..|c| - 1] == Join(g);
    SplitJoin(g);
  }

  lemma {:induction false} ChunkSentencesRenderAll(gs: seq<seq<string>>)
    requires forall i :: 0 <= i < |gs| ==> gs[i] != [] && AllSentences(gs[i])
    ensures ChunkSentences(RenderAll(gs)) == Flatten(gs)
    decreases |gs|
  {
    if gs != [] {
      UnrenderRender(gs[0]);
      assert RenderAll(gs)[1..] == RenderAll(gs[1..]);
      ChunkSentencesRenderAll(gs[1..]);
    }
  }

  // ---------------------------------------------------------------------
  // The shape of a rendered chunk

  /** A chunk ends with '.', holds no '!' or '?', and every other '.' is
      the start of a ". " separator; it neither starts with white space nor
      has white space before its final '.'. */
  predicate WellFormedChunk(c: string) {
    && |c| >= 2
    && c[|c| - 1] == '.'
    && !IsWhiteSpace(c[0]) && !IsWhiteSpace(c[|c| - 2])
    && (forall k :: 0 <= k < |c| ==> c[k] != '!' && c[k] != '?')
    && (forall k :: 0 <= k < |c| - 1 && c[k] == '.' ==> c[k + 1] == ' ')
  }

  lemma {:induction false} JoinShape(g: seq<string>)
    requires g != [] && AllSentences(g)
    ensures var j := Join(g);
      && |j| >= 1
      && j[0] == g[0][0] && j[|j| - 1] == g[|g| - 1][|g[|g| - 1]| - 1]
      && (forall k :: 0 <= k < |j| ==> j[k] != '!' && j[k] != '?')
      && (forall k :: 0 <= k < |j| && j[k] == '.' ==> k + 1 < |j| && j[k + 1] == ' ')
    decreases |g|
  {
    var t := g[|g| - 1];
    assert !IsTerminator(t[0]);
    if |g| > 1 {
      var init := g[..|g| - 1];
      JoinShape(init);
      var ji := Join(init);
      var j := Join(g);
      assert j == ji + ". " + t;
      forall k | 0 <= k < |j|
        ensures j[k] != '!' && j[k] != '?'
        ensures j[k] == '.' ==> k + 1 < |j| && j[k + 1] == ' '
      {
        if k < |ji| {
          assert j[k] == ji[k];
          if k + 1 < |ji| {
            assert j[k + 1] == ji[k + 1];
          }
        } else if k >= |ji| + 2 {
          assert j[k] == t[k - |ji| - 2];
          assert !IsTerminator(t[k - |ji| - 2]);
        }
      }
    }
  }

  lemma RenderWellFormed(g: seq<string>)
    requires g != [] && AllSentences(g)
    ensures WellFormedChunk(Render(g))
  {
    JoinShape(g);
    var j := Join(g);
    var c := Render(g);
    assert forall k :: 0 <= k < |j| ==> c[k] == j[k];
  }

  // ---------------------------------------------------------------------
  // Greedy grouping

  /** The greedy policy on sentences.  `open` is the group being built: a
      sentence joins it when the buffer length plus the sentence length
      plus one is at most `max`; otherwise the group closes (if it has
      anything in it) and the sentence opens the next one. */
  function PackGroups(sents: seq<string>, max: int, open: seq<string>): seq<seq<string>>
    decreases |sents|
  {
    if sents == [] then (if open == [] then [] else [open])
    else
      var t := sents[0];
      if Utf16Length(Join(open)) + Utf16Length(t) + 1 <= max then PackGroups(sents[1..], max, open + [t])
      else (if open == [] then [] else [open]) + PackGroups(sents[1..], max, [t])
  }

  /** The groups of sentences `SplitTextIntoChunks` turns into chunks. */
  function ChunkGroups(text: string, maxChunkSize: int): seq<seq<string>> {
    PackGroups(Sentences(text), maxChunkSize, [])
  }

  /** The chunks of `text`: every group rendered. */
  function Chunks(text: string, maxChunkSize: int): seq<string> {
    RenderAll(ChunkGroups(text, maxChunkSize))
  }

  /** Grouping neither drops, duplicates nor reorders sentences. */
  lemma {:induction false} PackGroupsFlatten(sents: seq<string>, max: int, open: seq<string>)
    ensures Flatten(PackGroups(sents, max, open)) == open + sents
    decreases |sents|
  {
    if sents == [] {
      assert open + sents == open;
    } else {
      var t := sents[0];
      assert sents == [t] + sents[1..];
      if Utf16Length(Join(open)) + Utf16Length(t) + 1 <= max {
        PackGroupsFlatten(sents[1..], max, open + [t]);
      } else {
        var rest := PackGroups(sents[1..], max, [t]);
        PackGroupsFlatten(sents[1..], max, [t]);
        FlattenAppend(if open == [] then [] else [open], rest);
      }
    }
  }

  /** One step of the grouping, for a sentence list written as head and tail. */
  lemma PackGroupsCons(t: string, rest: seq<string>, max: int, open: seq<string>)
    ensures PackGroups([t] + rest, max, open)
         == if Utf16Length(Join(open)) + Utf16Length(t) + 1 <= max
            then PackGroups(rest, max, open + [t])
            else (if open == [] then [] else [open]) + PackGroups(rest, max, [t])
  {
    assert ([t] + rest)[0] == t;
    assert ([t] + rest)[1..] == rest;
  }

  /** Every group is non-empty and holds only sentences. */
  lemma {:induction false} PackGroupsMembers(sents: seq<string>, max: int, open: seq<string>)
    requires AllSentences(sents) && AllSentences(open)
    ensures var r := PackGroups(sents, max, open);
      forall i :: 0 <= i < |r| ==> r[i] != [] && AllSentences(r[i])
    decreases |sents|
  {
    if sents != [] {
      var t := sents[0];
      var rest := sents[1..];
      assert sents == [t] + rest;
      assert IsSentence(t);
      assert AllSentences(rest) by {
        assert forall k :: 0 <= k < |rest| ==> rest[k] == sents[k + 1];
      }
      PackGroupsCons(t, rest, max, open);
      if Utf16Length(Join(open)) + Utf16Length(t) + 1 <= max {
        assert AllSentences(open + [t]) by {
          assert forall k :: 0 <= k < |open| ==> (open + [t])[k] == open[k];
        }
        PackGroupsMembers(rest, max, open + [t]);
      } else {
        PackGroupsMembers(rest, max, [t]);
      }
    }
  }

  /** A group of two or more sentences joins to at most `max + 1` code units. */
  lemma {:induction false} PackGroupsBound(sents: seq<string>, max: int, open: seq<string>)
    requires |open| >= 2 ==> Utf16Length(Join(open)) <= max + 1
    ensures var r := PackGroups(sents, max, open);
      forall i :: 0 <= i < |r| && |r[i]| >= 2 ==> Utf16Length(Join(r[i])) <= max + 1
    decreases |sents|
  {
    if sents != [] {
      var t := sents[0];
      var rest := sents[1..];
      assert sents == [t] + rest;
      PackGroupsCons(t, rest, max, open);
      if Utf16Length(Join(open)) + Utf16Length(t) + 1 <= max {
        if open != [] {
          JoinLength(open, t);
        }
        PackGroupsBound(rest, max, open + [t]);
      } else {
        PackGroupsBound(rest, max, [t]);
      }
    }
  }

  /** A group closes only when the next group's first sentence did not fit;
      the open group is the start of the first group. */
  /** No group could have taken the first sentence of the group after it. */
  predicate GreedyGroups(gs: seq<seq<string>>, max: int) {
    forall i :: 0 < i < |gs| ==>
      |gs[i]| >= 1 && Utf16Length(Join(gs[i - 1])) + Utf16Length(gs[i][0]) + 1 > max
  }

  lemma {:induction false} PackGroupsGreedy(sents: seq<string>, max: int, open: seq<string>)
    ensures var r := PackGroups(sents, max, open);
      && (open != [] ==> |r| >= 1 && |r[0]| >= |open| && r[0][..|open|] == open)
      && GreedyGroups(r, max)
    decreases |sents|
  {
    if sents != [] {
      var t := sents[0];
      var rest := sents[1..];
      assert sents == [t] + rest;
      PackGroupsCons(t, rest, max, open);
      var r := PackGroups(sents, max, open);
      if Utf16Length(Join(open)) + Utf16Length(t) + 1 <= max {
        PackGroupsGreedy(rest, max, open + [t]);
        assert r == PackGroups(rest, max, open + [t]);
        if open != [] {
          assert r[0][..|open|] == r[0][..|open| + 1][..|open|];
        }
      } else {
        var tail := PackGroups(rest, max, [t]);
        PackGroupsGreedy(rest, max, [t]);
        assert tail[0][..1] == [t];
        assert tail[0][0] == t;
        if open != [] {
          assert r == [open] + tail;
          GreedyPrepend(open, tail, max);
        } else {
          assert r == tail;
        }
      }
    }
  }

  /** A group put in front keeps the grouping greedy when the old first
      sentence did not fit in it. */
  lemma GreedyPrepend(g: seq<string>, tail: seq<seq<string>>, max: int)
    requires GreedyGroups(tail, max)
    requires |tail| >= 1 && |tail[0]| >= 1
    requires Utf16Length(Join(g)) + Utf16Length(tail[0][0]) + 1 > max
    ensures GreedyGroups([g] + tail, max)
  {
    var r := [g] + tail;
    forall i | 0 < i < |r|
      ensures |r[i]| >= 1 && Utf16Length(Join(r[i - 1])) + Utf16Length(r[i][0]) + 1 > max
    {
      assert r[i] == tail[i - 1];
      if i > 1 {
        assert r[i - 1] == tail[i - 2];
      }
    }
  }

  // ---------------------------------------------------------------------
  // Properties of the chunks of a text

  lemma ChunkGroupsFacts(text: string, maxChunkSize: int)
    ensures var gs := ChunkGroups(text, maxChunkSize);
      && Flatten(gs) == Sentences(text)
      && forall i :: 0 <= i < |gs| ==> gs[i] != [] && AllSentences(gs[i])
  {
    SentencesAreSentences(text);
    PackGroupsFlatten(Sentences(text), maxChunkSize, []);
    PackGroupsMembers(Sentences(text), maxChunkSize, []);
  }

  /** Every chunk is well formed. */
  lemma ChunksWellFormed(text: string, maxChunkSize: int)
    ensures forall c :: c in Chunks(text, maxChunkSize) ==> WellFormedChunk(c)
  {
    var gs := ChunkGroups(text, maxChunkSize);
    ChunkGroupsFacts(text, maxChunkSize);
    forall i | 0 <= i < |gs|
      ensures WellFormedChunk(Chunks(text, maxChunkSize)[i])
    {
      RenderWellFormed(gs[i]);
    }
  }

  /** Round trip: splitting every chunk back into sentences and concatenating
      the results in order gives exactly the sentences of the text. */
  lemma ChunksRoundTrip(text: string, maxChunkSize: int)
    ensures ChunkSentences(Chunks(text, maxChunkSize)) == Sentences(text)
  {
    ChunkGroupsFacts(text, maxChunkSize);
    ChunkSentencesRenderAll(ChunkGroups(text, maxChunkSize));
  }

  /** A chunk holding two or more sentences is at most `maxChunkSize + 2`
      code units long (the guard counts one separator character where two
      are added, and the final '.' is not counted); only a one-sentence
      chunk can be longer. */
  lemma ChunkLengthBound(text: string, maxChunkSize: int)
    ensures var cs := Chunks(text, maxChunkSize);
      forall i :: 0 <= i < |cs| && |Unrender(cs[i])| >= 2 ==> Utf16Length(cs[i]) <= maxChunkSize + 2
  {
    var gs := ChunkGroups(text, maxChunkSize);
    assert gs == PackGroups(Sentences(text), maxChunkSize, []);
    ChunkGroupsFacts(text, maxChunkSize);
    PackGroupsBound(Sentences(text), maxChunkSize, []);
    assert forall i :: 0 <= i < |gs| && |gs[i]| >= 2 ==> Utf16Length(Join(gs[i])) <= maxChunkSize + 1;
    RenderAllBound(gs, maxChunkSize);
  }

  lemma RenderAllBound(gs: seq<seq<string>>, max: int)
    requires forall i :: 0 <= i < |gs| ==> gs[i] != [] && AllSentences(gs[i])
    requires forall i :: 0 <= i < |gs| && |gs[i]| >= 2 ==> Utf16Length(Join(gs[i])) <= max + 1
    ensures var cs := RenderAll(gs);
      forall i :: 0 <= i < |cs| && |Unrender(cs[i])| >= 2 ==> Utf16Length(cs[i]) <= max + 2
  {
    var cs := RenderAll(gs);
    forall i | 0 <= i < |cs| && |Unrender(cs[i])| >= 2
      ensures Utf16Length(cs[i]) <= max + 2
    {
      RenderedLength(gs[i]);
    }
  }

  /** The rendered chunk of a group, its sentences and its length. */
  lemma RenderedLength(g: seq<string>)
    requires g != [] && AllSentences(g)
    ensures Unrender(Render(g)) == g
    ensures Utf16Length(Render(g)) == Utf16Length(Join(g)) + 1
  {
    UnrenderRender(g);
    Utf16LengthAppend(Join(g), ".");
  }

  /** A chunk is closed only when the first sentence of the next chunk
      would have failed the guard against it. */
  lemma ChunksGreedy(text: string, maxChunkSize: int)
    ensures var cs := Chunks(text, maxChunkSize);
      forall i :: 0 < i < |cs| ==>
        |Unrender(cs[i])| >= 1 && Utf16Length(cs[i - 1]) + Utf16Length(Unrender(cs[i])[0]) > maxChunkSize
  {
    var gs := ChunkGroups(text, maxChunkSize);
    assert gs == PackGroups(Sentences(text), maxChunkSize, []);
    ChunkGroupsFacts(text, maxChunkSize);
    PackGroupsGreedy(Sentences(text), maxChunkSize, []);
    RenderAllGreedy(gs, maxChunkSize);
  }

  lemma RenderAllGreedy(gs: seq<seq<string>>, max: int)
    requires forall i :: 0 <= i < |gs| ==> gs[i] != [] && AllSentences(gs[i])
    requires GreedyGroups(gs, max)
    ensures var cs := RenderAll(gs);
      forall i :: 0 < i < |cs| ==>
        |Unrender(cs[i])| >= 1 && Utf16Length(cs[i - 1]) + Utf16Length(Unrender(cs[i])[0]) > max
  {
    var cs := RenderAll(gs);
    forall i | 0 < i < |cs|
      ensures |Unrender(cs[i])| >= 1
      ensures Utf16Length(cs[i - 1]) + Utf16Length(Unrender(cs[i])[0]) > max
    {
      RenderedLength(gs[i]);
      RenderedLength(gs[i - 1]);
    }
  }

  /** Text whose only non-white characters are terminators (the empty text
      included) has no chunks. */
  lemma BlankTextHasNoChunks(text: string, maxChunkSize: int)
    requires forall k :: 0 <= k < |text| ==> IsWhiteSpace(text[k]) || IsTerminator(text[k])
    ensures Chunks(text, maxChunkSize) == []
  {
    var ps := SplitPieces(text);
    var all := Pieces(text);
    PiecesChars(text);
    forall p | p in ps
      ensures Trim(p) == []
    {
      var k :| 0 <= k < |all| && all[k] == p;
      assert Within(p, text);
      forall j | 0 <= j < |p|
        ensures IsWhiteSpace(p[j])
      {
        assert p[j] in text;
        assert !IsTerminator(p[j]);
      }
    }
    KeepTrimmedEmpty(ps);
  }

  lemma {:induction false} KeepTrimmedEmpty(ps: seq<string>)
    requires forall p :: p in ps ==> Trim(p) == []
    ensures KeepTrimmed(ps) == []
    decreases |ps|
  {
    if ps != [] {
      assert ps[0] in ps;
      KeepTrimmedEmpty(ps[1..]);
    }
  }

  /** Text without terminators is one sentence: it gives its trimmed self
      plus ".", or nothing when it is all white space. */
  lemma UnterminatedText(text: string, maxChunkSize: int)
    requires NoTerminator(text)
    ensures Chunks(text, maxChunkSize) == if AllWhite(text) then [] else [Trim(text) + "."]
    ensures |Chunks(text, maxChunkSize)| <= 1
  {
    NoTerminatorWithout(text);
    NoTerminatorCount(text);
    var all := Pieces(text);
    assert |all| == 1;
    assert Flatten(all) == all[0] + Flatten(all[1..]);
    assert all[1..] == [];
    assert Flatten(all) == all[0];
    assert all[0] == text;
    assert all == [text];
    var ps := SplitPieces(text);
    assert ps == if text == [] then [] else [text];
    if ps != [] {
      var t := Trim(text);
      assert KeepTrimmed(ps) == (if t == [] then [] else [t]) + KeepTrimmed([]);
      if t != [] {
        assert Sentences(text) == [t];
        PackGroupsCons(t, [], maxChunkSize, []);
        assert [t] + [] == [t] && [] + [t] == [t];
        assert ChunkGroups(text, maxChunkSize) == [[t]];
        assert Join([t]) == t;
      }
    }
  }

  lemma {:induction false} NoTerminatorWithout(s: string)
    requires NoTerminator(s)
    ensures WithoutTerminators(s) == s
    decreases |s|
  {
    if s != [] {
      assert !IsTerminator(s[0]);
      NoTerminatorWithout(s[1..]);
    }
  }

  lemma {:induction false} NoTerminatorCount(s: string)
    requires NoTerminator(s)
    ensures TerminatorCount(s) == 0
    decreases |s|
  {
    if s != [] {
      assert !IsTerminator(s[0]);
      NoTerminatorCount(s[1..]);
    }
  }

  /** The `maxChunkSize + 2` bound is reached: two sentences of 4 and 5
      characters with a limit of 10 give one chunk of 12. */
  lemma ChunkBoundReached()
    ensures PackGroups(["aaaa", "bbbbb"], 10, []) == [["aaaa", "bbbbb"]]
    ensures Utf16Length(Render(["aaaa", "bbbbb"])) == 12
  {
    ChunkBoundGroups();
    ChunkBoundLength();
  }

  lemma ChunkBoundGroups()
    ensures PackGroups(["aaaa", "bbbbb"], 10, []) == [["aaaa", "bbbbb"]]
  {
    Utf16LengthBmp("");
    assert Join([]) == "";
    assert Utf16Length("") == 0;
    Utf16LengthBmp("aaaa");
    Utf16LengthBmp("bbbbb");
    assert Join(["aaaa"]) == "aaaa";
    PackGroupsCons("aaaa", ["bbbbb"], 10, []);
    assert ["aaaa", "bbbbb"] == ["aaaa"] + ["bbbbb"];
    assert [] + ["aaaa"] == ["aaaa"];
    assert PackGroups(["aaaa", "bbbbb"], 10, []) == PackGroups(["bbbbb"], 10, ["aaaa"]);
    PackGroupsCons("bbbbb", [], 10, ["aaaa"]);
    assert ["bbbbb"] + [] == ["bbbbb"];
    assert ["aaaa"] + ["bbbbb"] == ["aaaa", "bbbbb"];
    assert PackGroups(["bbbbb"], 10, ["aaaa"]) == PackGroups([], 10, ["aaaa", "bbbbb"]);
    assert (["aaaa"] + ["bbbbb"])[..1] == ["aaaa"];
  }

  lemma ChunkBoundLength()
    ensures Utf16Length(Render(["aaaa", "bbbbb"])) == 12
  {
    Utf16LengthBmp("aaaa. bbbbb.");
    assert Join(["aaaa"]) == "aaaa";
    assert Join(["aaaa", "bbbbb"]) == "aaaa. bbbbb";
    assert Render(["aaaa", "bbbbb"]) == "aaaa. bbbbb.";
  }


  // ---------------------------------------------------------------------
  // The C# loop

  /** `SplitTextIntoChunks`, written as the C# loop with its string buffer. */
  method SplitTextIntoChunks(text: string, maxChunkSize: int) returns (chunks: seq<string>)
    ensures chunks == Chunks(text, maxChunkSize)
    ensures forall c :: c in chunks ==> WellFormedChunk(c)
    ensures ChunkSentences(chunks) == Sentences(text)
  {
    PiecesNoTerminator(text);
    chunks := PackPieces(SplitPieces(text), maxChunkSize);
    assert forall c :: c in chunks ==> WellFormedChunk(c) by {
      ChunksWellFormed(text, maxChunkSize);
    }
    assert ChunkSentences(chunks) == Sentences(text) by {
      ChunksRoundTrip(text, maxChunkSize);
    }
  }

  /** The loop of `SplitTextIntoChunks` over the split pieces: trim each,
      skip the empty ones, and either extend the buffer or flush it. */
  method PackPieces(sentences: seq<string>, maxChunkSize: int) returns (chunks: seq<string>)
    requires forall k :: 0 <= k < |sentences| ==> NoTerminator(sentences[k])
    ensures chunks == RenderAll(PackGroups(KeepTrimmed(sentences), maxChunkSize, []))
  {
    chunks := [];
    var currentChunk := "";
    ghost var open: seq<string> := [];
    ghost var target := RenderAll(PackGroups(KeepTrimmed(sentences), maxChunkSize, []));
    ghost var todo := KeepTrimmed(sentences);
    assert sentences[0..] == sentences;
    assert chunks + target == target;
    for i := 0 to |sentences|
      invariant todo == KeepTrimmed(sentences[i..])
      invariant currentChunk == Join(open)
      invariant AllSentences(open)
      invariant chunks + RenderAll(PackGroups(todo, maxChunkSize, open)) == target
    {
      var trimmedSentence := Trim(sentences[i]);
      ghost var rest := KeepTrimmed(sentences[i + 1..]);
      assert todo == (if trimmedSentence == [] then [] else [trimmedSentence]) + rest by {
        KeepTrimmedStep(sentences, i);
      }
      if trimmedSentence != "" {
        assert IsSentence(trimmedSentence) by {
          TrimNoTerminator(sentences[i]);
        }
        assert todo == [trimmedSentence] + rest;
        if Utf16Length(currentChunk) + Utf16Length(trimmedSentence) + 1 <= maxChunkSize {
          AppendStep(chunks, open, trimmedSentence, rest, maxChunkSize, target);
          currentChunk := currentChunk + (if |currentChunk| > 0 then ". " else "") + trimmedSentence;
          open := open + [trimmedSentence];
        } else {
          CloseStep(chunks, open, trimmedSentence, rest, maxChunkSize, target);
          if currentChunk != "" {
            chunks := chunks + [currentChunk + "."];
          }
          currentChunk := trimmedSentence;
          open := [trimmedSentence];
        }
      } else {
        assert todo == rest;
      }
      todo := rest;
    }
    FinishStep(chunks, open, maxChunkSize, target);
    if currentChunk != "" {
      chunks := chunks + [currentChunk + "."];
    }
  }

  /** The loop appends a sentence that fits to the buffer. */
  lemma AppendStep(chunks: seq<string>, open: seq<string>, t: string, rest: seq<string>, max: int,
                   target: seq<string>)
    requires AllSentences(open) && IsSentence(t)
    requires chunks + RenderAll(PackGroups([t] + rest, max, open)) == target
    requires Utf16Length(Join(open)) + Utf16Length(t) + 1 <= max
    ensures chunks + RenderAll(PackGroups(rest, max, open + [t])) == target
    ensures Join(open) + (if |Join(open)| > 0 then ". " else "") + t == Join(open + [t])
    ensures AllSentences(open + [t])
  {
    PackGroupsCons(t, rest, max, open);
    AppendSentence(open, t);
  }

  /** The loop closes the buffer (when non-empty) and restarts it with a
      sentence that does not fit. */
  lemma CloseStep(chunks: seq<string>, open: seq<string>, t: string, rest: seq<string>, max: int,
                  target: seq<string>)
    requires AllSentences(open)
    requires chunks + RenderAll(PackGroups([t] + rest, max, open)) == target
    requires Utf16Length(Join(open)) + Utf16Length(t) + 1 > max
    ensures Join(open) != "" ==> (chunks + [Join(open) + "."]) + RenderAll(PackGroups(rest, max, [t])) == target
    ensures Join(open) == "" ==> chunks + RenderAll(PackGroups(rest, max, [t])) == target
  {
    PackGroupsCons(t, rest, max, open);
    var closed: seq<seq<string>> := if open == [] then [] else [open];
    RenderAllAppend(closed, PackGroups(rest, max, [t]));
    assert RenderAll(closed) == (if Join(open) != "" then [Join(open) + "."] else []);
  }

  /** After the loop, the buffer (when non-empty) is the last chunk. */
  lemma FinishStep(chunks: seq<string>, open: seq<string>, max: int, target: seq<string>)
    requires AllSentences(open)
    requires chunks + RenderAll(PackGroups([], max, open)) == target
    ensures Join(open) != "" ==> chunks + [Join(open) + "."] == target
    ensures Join(open) == "" ==> chunks == target
  {
    var closed: seq<seq<string>> := if open == [] then [] else [open];
    assert RenderAll(closed) == (if Join(open) != "" then [Join(open) + "."] else []);
  }

  lemma PiecesNoTerminator(text: string)
    ensures forall k :: 0 <= k < |SplitPieces(text)| ==> NoTerminator(SplitPieces(text)[k])
  {
    var ps := SplitPieces(text);
    var all := Pieces(text);
    forall k | 0 <= k < |ps|
      ensures NoTerminator(ps[k])
    {
      assert ps[k] in all;
      var j :| 0 <= j < |all| && all[j] == ps[k];
    }
  }

  /** The buffer update of the loop appends one sentence to the open group. */
  lemma AppendSentence(open: seq<string>, t: string)
    requires AllSentences(open) && IsSentence(t)
    ensures Join(open) + (if |Join(open)| > 0 then ". " else "") + t == Join(open + [t])
    ensures AllSentences(open + [t])
  {
    if open == [] {
      assert [] + [t] == [t];
    } else {
      assert (open + [t])[..|open|] == open;
    }
    assert forall k :: 0 <= k < |open| ==> (open + [t])[k] == open[k];
  }

  // ---------------------------------------------------------------------
  // The page loop of ExtractTextFromPdfAsync

  /** The chunks one page contributes: none for a null or blank page,
      otherwise its text cut at `PageChunkSize`. */
  function PageChunks(pageText: Option<string>): seq<string> {
    if IsNullOrWhiteSpace(pageText) then [] else Chunks(pageText.value, PageChunkSize)
  }

  /** The chunks of every page, page 1 first. */
  function PagesChunks(pages: seq<Option<string>>): (r: seq<seq<string>>)
    ensures |r| == |pages|
    ensures forall p :: 0 <= p < |pages| ==> r[p] == PageChunks(pages[p])
  {
    seq(|pages|, p requires 0 <= p < |pages| => PageChunks(pages[p]))
  }

  /** The number of chunks in the first pages. */
  function ChunkCount(chunked: seq<seq<string>>): nat
    decreases |chunked|
  {
    if chunked == [] then 0 else ChunkCount(chunked[..|chunked| - 1]) + |chunked[|chunked| - 1]|
  }

  /** The record `new DocumentChunk { … }` builds for chunk `i` of page
      `pageNumber`; `now` is the clock reading of its construction. */
  function ChunkRecord(content: string, fileName: string, pageNumber: int, i: int, now: Instant): DocumentChunk {
    NewDocumentChunk(now).(content := content, fileName := fileName, pageNumber := pageNumber, chunkIndex := i)
  }

  /** The records of one page.  `base` is the number of records built
      before, so the `k`-th record overall reads the clock as `clock(k)`. */
  function PageRecords(cs: seq<string>, fileName: string, pageNumber: int, base: nat, clock: nat -> Instant)
    : (r: seq<DocumentChunk>)
    ensures |r| == |cs|
    ensures forall i :: 0 <= i < |r| ==> r[i] == ChunkRecord(cs[i], fileName, pageNumber, i, clock(base + i))
  {
    seq(|cs|, i requires 0 <= i < |cs| => ChunkRecord(cs[i], fileName, pageNumber, i, clock(base + i)))
  }

  /** The nested loops of `ExtractTextFromPdfAsync` over pages already cut
      into chunks: page `p` (1-based) contributes its chunks in order,
      numbered from 0. */
  function Assemble(chunked: seq<seq<string>>, fileName: string, clock: nat -> Instant): seq<DocumentChunk>
    decreases |chunked|
  {
    if chunked == [] then []
    else
      var before := Assemble(chunked[..|chunked| - 1], fileName, clock);
      before + PageRecords(chunked[|chunked| - 1], fileName, |chunked|, |before|, clock)
  }

  /** `ExtractTextFromPdfAsync` after text extraction. */
  function ExtractTextFromPdf(pages: seq<Option<string>>, fileName: string, clock: nat -> Instant)
    : seq<DocumentChunk>
  {
    Assemble(PagesChunks(pages), fileName, clock)
  }

  lemma {:induction false} AssembleCount(chunked: seq<seq<string>>, fileName: string, clock: nat -> Instant)
    ensures |Assemble(chunked, fileName, clock)| == ChunkCount(chunked)
    decreases |chunked|
  {
    if chunked != [] {
      AssembleCount(chunked[..|chunked| - 1], fileName, clock);
    }
  }

  lemma {:induction false} AssembleLayout(chunked: seq<seq<string>>, fileName: string, clock: nat -> Instant,
                                          p: int, i: int)
    requires 1 <= p <= |chunked| && 0 <= i < |chunked[p - 1]|
    ensures var r := Assemble(chunked, fileName, clock);
            var k := ChunkCount(chunked[..p - 1]) + i;
            k < |r| && r[k] == ChunkRecord(chunked[p - 1][i], fileName, p, i, clock(k))
    decreases |chunked|
  {
    var n := |chunked|;
    var front := chunked[..n - 1];
    var before := Assemble(front, fileName, clock);
    var page := PageRecords(chunked[n - 1], fileName, n, |before|, clock);
    assert Assemble(chunked, fileName, clock) == before + page;
    AssembleCount(front, fileName, clock);
    if p == n {
      assert chunked[..p - 1] == front;
      assert (before + page)[|before| + i] == page[i];
    } else {
      assert front[..p - 1] == chunked[..p - 1];
      assert front[p - 1] == chunked[p - 1];
      AssembleLayout(front, fileName, clock, p, i);
      var k := ChunkCount(chunked[..p - 1]) + i;
      assert (before + page)[k] == before[k];
    }
  }

  lemma {:induction false} AssembleFields(chunked: seq<seq<string>>, fileName: string, clock: nat -> Instant)
    ensures forall d :: d in Assemble(chunked, fileName, clock) ==>
              && 1 <= d.pageNumber <= |chunked|
              && 0 <= d.chunkIndex < |chunked[d.pageNumber - 1]|
              && d.content == chunked[d.pageNumber - 1][d.chunkIndex]
              && d.fileName == fileName
              && d.id == 0 && d.embedding == None
    decreases |chunked|
  {
    if chunked != [] {
      var n := |chunked|;
      var front := chunked[..n - 1];
      var before := Assemble(front, fileName, clock);
      var page := PageRecords(chunked[n - 1], fileName, n, |before|, clock);
      assert Assemble(chunked, fileName, clock) == before + page;
      AssembleFields(front, fileName, clock);
      forall d: DocumentChunk | d in before + page
        ensures && 1 <= d.pageNumber <= n
                && 0 <= d.chunkIndex < |chunked[d.pageNumber - 1]|
                && d.content == chunked[d.pageNumber - 1][d.chunkIndex]
                && d.fileName == fileName
                && d.id == 0 && d.embedding == None
      {
        if d in before {
          assert front[d.pageNumber - 1] == chunked[d.pageNumber - 1];
        } else {
          assert d in page;
          var i :| 0 <= i < |page| && page[i] == d;
        }
      }
    }
  }

  /** Records ordered by page, then by chunk index. */
  predicate InPageOrder(r: seq<DocumentChunk>) {
    forall j, k :: 0 <= j < k < |r| ==>
      r[j].pageNumber < r[k].pageNumber
      || (r[j].pageNumber == r[k].pageNumber && r[j].chunkIndex < r[k].chunkIndex)
  }

  lemma {:induction false} AssembleOrdered(chunked: seq<seq<string>>, fileName: string, clock: nat -> Instant)
    ensures InPageOrder(Assemble(chunked, fileName, clock))
    decreases |chunked|
  {
    if chunked != [] {
      var n := |chunked|;
      var front := chunked[..n - 1];
      var before := Assemble(front, fileName, clock);
      var page := PageRecords(chunked[n - 1], fileName, n, |before|, clock);
      assert Assemble(chunked, fileName, clock) == before + page;
      AssembleOrdered(front, fileName, clock);
      AssembleFields(front, fileName, clock);
      var r := before + page;
      forall j, k | 0 <= j < k < |r|
        ensures r[j].pageNumber < r[k].pageNumber
                || (r[j].pageNumber == r[k].pageNumber && r[j].chunkIndex < r[k].chunkIndex)
      {
        if k < |before| {
          assert r[j] == before[j] && r[k] == before[k];
          assert before[j].pageNumber < before[k].pageNumber
                 || (before[j].pageNumber == before[k].pageNumber && before[j].chunkIndex < before[k].chunkIndex);
        } else if j < |before| {
          assert r[j] == before[j] && r[j] in before;
          assert r[j].pageNumber <= n - 1;
          assert r[k] == page[k - |before|];
          assert r[k].pageNumber == n;
        } else {
          assert r[j] == page[j - |before|] && r[k] == page[k - |before|];
          assert r[j].pageNumber == n == r[k].pageNumber;
          assert r[j].chunkIndex == j - |before| < k - |before| == r[k].chunkIndex;
        }
      }
    }
  }

  /** One record per chunk of every page. */
  lemma ExtractCount(pages: seq<Option<string>>, fileName: string, clock: nat -> Instant)
    ensures |ExtractTextFromPdf(pages, fileName, clock)| == ChunkCount(PagesChunks(pages))
  {
    AssembleCount(PagesChunks(pages), fileName, clock);
  }

  /** Where each chunk of each page lands: chunk `i` of page `p` is record
      number `k`, the count of chunks on earlier pages plus `i`, with
      `PageNumber` `p`, `ChunkIndex` `i`, the caller's file name, no id and
      no embedding. */
  lemma ExtractLayout(pages: seq<Option<string>>, fileName: string, clock: nat -> Instant, p: int, i: int)
    requires 1 <= p <= |pages| && 0 <= i < |PageChunks(pages[p - 1])|
    ensures var r := ExtractTextFromPdf(pages, fileName, clock);
            var k := ChunkCount(PagesChunks(pages)[..p - 1]) + i;
            k < |r| && r[k] == ChunkRecord(PageChunks(pages[p - 1])[i], fileName, p, i, clock(k))
  {
    AssembleLayout(PagesChunks(pages), fileName, clock, p, i);
  }

  /** Every record has a page number in `1..|pages|`, the caller's file
      name, one of its page's chunks as content, and neither an id nor an
      embedding yet. */
  lemma ExtractFields(pages: seq<Option<string>>, fileName: string, clock: nat -> Instant)
    ensures forall d :: d in ExtractTextFromPdf(pages, fileName, clock) ==>
              && 1 <= d.pageNumber <= |pages|
              && 0 <= d.chunkIndex < |PageChunks(pages[d.pageNumber - 1])|
              && d.content == PageChunks(pages[d.pageNumber - 1])[d.chunkIndex]
              && d.fileName == fileName
              && d.id == 0 && d.embedding == None
  {
    AssembleFields(PagesChunks(pages), fileName, clock);
  }

  /** Records come in page order, and within a page in chunk order. */
  lemma ExtractOrdered(pages: seq<Option<string>>, fileName: string, clock: nat -> Instant)
    ensures InPageOrder(ExtractTextFromPdf(pages, fileName, clock))
  {
    AssembleOrdered(PagesChunks(pages), fileName, clock);
  }

  /** The page loop of `ExtractTextFromPdfAsync`, with the nested loop over
      a page's chunks; `clock(k)` is `DateTime.UtcNow` when the `k`-th
      record is built. */
  method ExtractTextFromPdfAsync(pages: seq<Option<string>>, fileName: string, clock: nat -> Instant)
    returns (chunks: seq<DocumentChunk>)
    ensures chunks == ExtractTextFromPdf(pages, fileName, clock)
    ensures |chunks| == ChunkCount(PagesChunks(pages))
  {
    ghost var chunked := PagesChunks(pages);
    chunks := [];
    for pageNum := 1 to |pages| + 1
      invariant chunks == Assemble(chunked[..pageNum - 1], fileName, clock)
    {
      var pageText := pages[pageNum - 1];
      var textChunks: seq<string> := [];
      if !IsNullOrWhiteSpace(pageText) {
        textChunks := SplitTextIntoChunks(pageText.value, PageChunkSize);
      }
      assert textChunks == chunked[pageNum - 1];
      AssembleStep(chunked, pageNum, fileName, clock);
      chunks := AddPageRecords(chunks, textChunks, fileName, pageNum, clock);
    }
    assert chunked[..|pages|] == chunked;
    AssembleCount(chunked, fileName, clock);
  }

  /** The inner loop: one record per chunk of the page, numbered from 0. */
  method AddPageRecords(before: seq<DocumentChunk>, textChunks: seq<string>, fileName: string, pageNum: int,
                        clock: nat -> Instant)
    returns (chunks: seq<DocumentChunk>)
    ensures chunks == before + PageRecords(textChunks, fileName, pageNum, |before|, clock)
  {
    chunks := before;
    for i := 0 to |textChunks|
      invariant chunks == before + PageRecords(textChunks[..i], fileName, pageNum, |before|, clock)
    {
      chunks := chunks + [ChunkRecord(textChunks[i], fileName, pageNum, i, clock(|chunks|))];
    }
    assert textChunks[..|textChunks|] == textChunks;
  }

  /** Taking one more page appends that page's records. */
  lemma AssembleStep(chunked: seq<seq<string>>, p: int, fileName: string, clock: nat -> Instant)
    requires 1 <= p <= |chunked|
    ensures var before := Assemble(chunked[..p - 1], fileName, clock);
            Assemble(chunked[..p], fileName, clock)
            == before + PageRecords(chunked[p - 1], fileName, p, |before|, clock)
  {
    assert chunked[..p][..p - 1] == chunked[..p - 1];
  }

  /** The blank-page check is a shortcut: the chunker gives nothing for
      blank text anyway. */
  lemma PageGuardRedundant(pageText: string)
    ensures PageChunks(Some(pageText)) == Chunks(pageText, PageChunkSize)
  {
    if AllWhite(pageText) {
      BlankTextHasNoChunks(pageText, PageChunkSize);
    }
  }

  /** A page that is not blank can still contribute nothing: text made of
      terminators and white space, with at least one terminator (such as
      "?!"), has no sentence, so a document of that one page yields no
      records. */
  lemma NonBlankPageWithoutChunks(text: string, fileName: string, clock: nat -> Instant)
    requires exists k :: 0 <= k < |text| && IsTerminator(text[k])
    requires forall k :: 0 <= k < |text| ==> IsWhiteSpace(text[k]) || IsTerminator(text[k])
    ensures !IsNullOrWhiteSpace(Some(text))
    ensures ExtractTextFromPdf([Some(text)], fileName, clock) == []
  {
    var k :| 0 <= k < |text| && IsTerminator(text[k]);
    assert !IsWhiteSpace(text[k]);
    BlankTextHasNoChunks(text, PageChunkSize);
    assert PageChunks(Some(text)) == [];
    var chunked := PagesChunks([Some(text)]);
    assert chunked == [[]];
    assert chunked[..0] == [];
    assert Assemble(chunked, fileName, clock)
        == Assemble([], fileName, clock) + PageRecords([], fileName, 1, 0, clock);
  }

}

=== FILE: qdrant_vector_service.dfy ===
/** QdrantVectorService: the vector-store adapter.

    The Qdrant client and the embedding service are not modelled; each call
    the adapter makes is recorded in a trace of `Call`s, and what the call
    answers is a parameter (`Outcome.Throws` when it raises).  When storing,
    the embedding request for chunk `i` answers `embeds[i]`, and the point
    id drawn for it from the random generator is `ids[i]`. */
module QdrantVectorService {
  import opened Outcomes
  import opened Text
  import opened Models

  const CollectionName: string := "pdf_documents"

  /** The embedding size of the nomic-embed-text model. */
  const VectorSize: nat := 768

  const TwoTo64: nat := 0x1_0000_0000_0000_0000

  /** A 64-bit unsigned point id. */
  type PointId = n: nat | n < TwoTo64

  datatype Distance = Cosine | Euclid | Dot | Manhattan

  datatype VectorParams = VectorParams(size: nat, distance: Distance)

  /** The configuration `InitializeAsync` creates the collection with. */
  const CollectionParams: VectorParams := VectorParams(VectorSize, Cosine)

  /** A payload value as Qdrant stores it.  A double keeps its rendering
      by `double.ToString()`; any other kind keeps the text its
      `ToString()` gives. */
  datatype Value =
    | StringValue(s: string)
    | IntegerValue(n: int)
    | DoubleValue(d: Float, text: string)
    | BoolValue(b: bool)
    | OtherValue(text: string)

  type Payload = map<string, Value>

  datatype PointStruct = PointStruct(id: PointId, vector: Vector, payload: Payload)

  /** A point returned by a nearest-neighbour search: its id rendered by
      `PointId.ToString()`, its score and its payload.  `Faulty` is a point
      whose reading raises. */
  datatype Hit = Hit(idText: string, score: Float, payload: Payload) | Faulty

  /** The calls the adapter makes on Qdrant and on the embedding service. */
  datatype Call =
    | ListCollections
    | CreateCollection(name: string, params: VectorParams)
    | Embed(text: Option<string>)
    | Upsert(name: string, points: seq<PointStruct>)
    | GetCollectionInfo(name: string)
    | NearestSearch(name: string, vector: Vector, limit: nat, scoreThreshold: Float)

  // ---------------------------------------------------------------------
  // InitializeAsync

  /** The collections on the Qdrant server, by name. */
  datatype Server = Server(collections: map<string, VectorParams>)

  datatype InitRun = InitRun(result: Outcome<Server>, calls: seq<Call>)

  /** `InitializeAsync`: create the collection unless a collection of that
      name is listed.  A failing list or create call is rethrown. */
  function Initialize(server: Server, listFails: bool, createFails: bool): (r: InitRun)
    ensures |r.calls| >= 1 && r.calls[0] == ListCollections
    ensures r.result.Returns? ==> CollectionName in r.result.value.collections
    ensures CollectionName in server.collections ==>
              r.calls == [ListCollections] && (listFails || r.result == Returns(server))
    ensures CollectionName !in server.collections && r.result.Returns? ==>
              r.result.value.collections == server.collections[CollectionName := CollectionParams]
    ensures r.result.Throws? <==> listFails || (CollectionName !in server.collections && createFails)
    ensures listFails ==> r.calls == [ListCollections]
    ensures !listFails && CollectionName !in server.collections ==>
              r.calls == [ListCollections, CreateCollection(CollectionName, CollectionParams)]
  {
    if listFails then InitRun(Throws, [ListCollections])
    else if CollectionName in server.collections then InitRun(Returns(server), [ListCollections])
    else
      var calls := [ListCollections, CreateCollection(CollectionName, CollectionParams)];
      if createFails then InitRun(Throws, calls)
      else InitRun(Returns(Server(server.collections[CollectionName := CollectionParams])), calls)
  }

  /** A second initialisation changes nothing and creates nothing, whatever
      a create call would have answered. */
  lemma InitializeIdempotent(server: Server, listFails: bool, createFails: bool, createFails2: bool)
    requires Initialize(server, listFails, createFails).result.Returns?
    ensures var s := Initialize(server, listFails, createFails).result.value;
            && Initialize(s, false, createFails2) == InitRun(Returns(s), [ListCollections])
            && (forall c :: c in Initialize(s, false, createFails2).calls ==> !c.CreateCollection?)
  {
  }

  // ---------------------------------------------------------------------
  // StoreDocumentChunksAsync

  /** The payload stored with a chunk. */
  function ChunkPayload(c: DocumentChunk): Payload {
    map[
      "content" := StringValue(c.content),
      "fileName" := StringValue(c.fileName),
      "pageNumber" := IntegerValue(c.pageNumber),
      "chunkIndex" := IntegerValue(c.chunkIndex),
      "createdAt" := StringValue(c.createdAt.roundTrip)]
  }

  /** How many embedding requests succeed before the first failure. */
  function EmbeddedCount(embeds: seq<Outcome<Vector>>): (k: nat)
    ensures k <= |embeds|
    ensures forall j :: 0 <= j < k ==> embeds[j].Returns?
    ensures k < |embeds| ==> embeds[k].Throws?
    decreases |embeds|
  {
    if embeds == [] then 0
    else
      var n := |embeds|;
      var k := EmbeddedCount(embeds[..n - 1]);
      if k < n - 1 then k else if embeds[n - 1].Returns? then n else n - 1
  }

  /** One embedding request per chunk, in order. */
  function EmbedCalls(chunks: seq<DocumentChunk>): (r: seq<Call>)
    ensures |r| == |chunks|
    ensures forall i :: 0 <= i < |r| ==> r[i] == Embed(Some(chunks[i].content))
  {
    seq(|chunks|, i requires 0 <= i < |chunks| => Embed(Some(chunks[i].content)))
  }

  /** The points of a fully embedded list: chunk `i` with the `i`-th
      embedding and the `i`-th id. */
  function Points(chunks: seq<DocumentChunk>, embeds: seq<Outcome<Vector>>, ids: seq<PointId>)
    : (r: seq<PointStruct>)
    requires |embeds| == |ids| == |chunks|
    requires forall i :: 0 <= i < |chunks| ==> embeds[i].Returns?
    ensures |r| == |chunks|
    ensures forall i :: 0 <= i < |r| ==> r[i] == PointStruct(ids[i], embeds[i].value, ChunkPayload(chunks[i]))
  {
    seq(|chunks|, i requires 0 <= i < |chunks| => PointStruct(ids[i], embeds[i].value, ChunkPayload(chunks[i])))
  }

  /** `chunk.Embedding = embedding` for a request that succeeded. */
  function Attach(c: DocumentChunk, e: Outcome<Vector>): DocumentChunk {
    if e.Returns? then c.(embedding := Some(e.value)) else c
  }

  /** `StoreDocumentChunksAsync`.  `updated` is the list after the method
      has set `Embedding` on the chunks it reached; `upsertFails` is whether
      the upsert raises. */
  method StoreDocumentChunks(chunks: seq<DocumentChunk>, embeds: seq<Outcome<Vector>>, ids: seq<PointId>,
                             upsertFails: bool)
    returns (ok: bool, updated: seq<DocumentChunk>, calls: seq<Call>)
    requires |embeds| == |ids| == |chunks|
    ensures ok <==> EmbeddedCount(embeds) == |chunks| && !upsertFails
    ensures EmbeddedCount(embeds) == |chunks| ==>
              calls == EmbedCalls(chunks) + [Upsert(CollectionName, Points(chunks, embeds, ids))]
    ensures EmbeddedCount(embeds) < |chunks| ==> calls == EmbedCalls(chunks[..EmbeddedCount(embeds) + 1])
    ensures |updated| == |chunks|
    ensures forall i :: 0 <= i < |chunks| ==>
              updated[i] == if i < EmbeddedCount(embeds) then Attach(chunks[i], embeds[i]) else chunks[i]
  {
    var points: seq<PointStruct> := [];
    updated := chunks;
    calls := [];
    for i := 0 to |chunks|
      invariant forall j :: 0 <= j < i ==> embeds[j].Returns?
      invariant calls == EmbedCalls(chunks[..i])
      invariant |updated| == |chunks|
      invariant forall j :: 0 <= j < |chunks| ==>
                  updated[j] == if j < i then Attach(chunks[j], embeds[j]) else chunks[j]
      invariant |points| == i
      invariant forall j :: 0 <= j < i ==> points[j] == PointStruct(ids[j], embeds[j].value, ChunkPayload(chunks[j]))
    {
      var embedding := embeds[i];
      assert chunks[..i + 1] == chunks[..i] + [chunks[i]];
      calls := calls + [Embed(Some(updated[i].content))];
      if embedding.Throws? {
        ok := false;
        StoreStopsAt(embeds, i);
        return;
      }
      updated := updated[i := updated[i].(embedding := Some(embedding.value))];
      points := points + [PointStruct(ids[i], embedding.value, ChunkPayload(updated[i]))];
    }
    assert chunks[..|chunks|] == chunks;
    assert points == Points(chunks, embeds, ids);
    calls := calls + [Upsert(CollectionName, points)];
    ok := !upsertFails;
  }

  /** The first failing request is the one the count stops at. */
  lemma StoreStopsAt(embeds: seq<Outcome<Vector>>, i: nat)
    requires i < |embeds| && embeds[i].Throws? && forall j :: 0 <= j < i ==> embeds[j].Returns?
    ensures EmbeddedCount(embeds) == i
  {
  }

  // ---------------------------------------------------------------------
  // GetPayloadValue and the decoding of a search hit

  /** `bool.ToString()`. */
  function BoolText(b: bool): string {
    if b then "True" else "False"
  }

  /** `GetPayloadValue`: the text of a payload entry, "" when absent. */
  function GetPayloadValue(payload: Payload, key: string): (r: string)
    ensures key !in payload ==> r == ""
    ensures key in payload && payload[key].StringValue? ==> r == payload[key].s
    ensures key in payload && payload[key].IntegerValue? ==> r == IntToDecimal(payload[key].n)
  {
    if key in payload then
      match payload[key]
      case StringValue(s) => s
      case IntegerValue(n) => IntToDecimal(n)
      case DoubleValue(_, text) => text
      case BoolValue(b) => BoolText(b)
      case OtherValue(text) => text
    else ""
  }

  /** Some character of `text` cannot occur in a number. */
  predicate HasStrayChar(text: string) {
    exists k :: 0 <= k < |text| && !IsNumberChar(text[k])
  }

  /** If `text` is the decimal text of an integer, `r` is that integer
      when it fits in 32 bits and 0 otherwise. */
  ghost predicate ReadsBackDecimal(text: string, r: int) {
    forall n :: text == IntToDecimal(n) ==> r == if IsInt32(n) then n else 0
  }

  /** `int.TryParse(text, out int pageNumber)`: 0 when the text is not a
      32-bit integer.  Text holding a character no number can contain
      gives 0, and the decimal text of an integer gives the integer back
      when it fits in 32 bits and 0 otherwise. */
  function ParsePageNumber(text: string): (r: int)
    ensures IsInt32(r)
    ensures HasStrayChar(text) ==> r == 0
    ensures ReadsBackDecimal(text, r)
  {
    var parsed := TryParseInt32(Some(text));
    assert parsed.Some? ==> forall k :: 0 <= k < |text| ==> IsNumberChar(text[k]) by {
      if parsed.Some? {
        ParsedChars(text);
      }
    }
    assert forall n :: text == IntToDecimal(n) ==> parsed == if IsInt32(n) then Some(n) else None by {
      forall n | text == IntToDecimal(n) {
        IntDecimalRoundTrip(n);
      }
    }
    parsed.GetOr(0)
  }

  /** The `SearchResult` built from a readable hit. */
  function DecodeHit(h: Hit): SearchResult
    requires h.Hit?
  {
    SearchResult(
      h.idText,
      GetPayloadValue(h.payload, "content"),
      GetPayloadValue(h.payload, "fileName"),
      ParsePageNumber(GetPayloadValue(h.payload, "pageNumber")),
      h.score)
  }

  /** The hits the loop gets through: the faulty ones are skipped, the
      others kept in store order. */
  function Readable(hits: seq<Hit>): (r: seq<Hit>)
    ensures |r| <= |hits|
    ensures forall i :: 0 <= i < |r| ==> r[i].Hit? && r[i] in hits
    decreases |hits|
  {
    if hits == [] then []
    else
      var last := hits[|hits| - 1];
      Readable(hits[..|hits| - 1]) + (if last.Hit? then [last] else [])
  }

  /** `f` applied to each element, in order. */
  function Map<A, B>(f: A --> B, xs: seq<A>): (r: seq<B>)
    requires forall i :: 0 <= i < |xs| ==> f.requires(xs[i])
    ensures |r| == |xs|
    ensures forall i :: 0 <= i < |xs| ==> r[i] == f(xs[i])
  {
    seq(|xs|, i requires 0 <= i < |xs| => f(xs[i]))
  }

  lemma MapAppend<A, B>(f: A --> B, x: seq<A>, y: seq<A>)
    requires forall i :: 0 <= i < |x| ==> f.requires(x[i])
    requires forall i :: 0 <= i < |y| ==> f.requires(y[i])
    ensures Map(f, x + y) == Map(f, x) + Map(f, y)
  {
    var l, r := Map(f, x + y), Map(f, x) + Map(f, y);
    forall i | 0 <= i < |l|
      ensures l[i] == r[i]
    {
      if i < |x| {
        assert (x + y)[i] == x[i];
      } else {
        assert (x + y)[i] == y[i - |x|];
      }
    }
  }

  /** A result for each of the given readable hits, in order. */
  function DecodeEach(rs: seq<Hit>): (r: seq<SearchResult>)
    requires forall i :: 0 <= i < |rs| ==> rs[i].Hit?
    ensures |r| == |rs|
    ensures forall i :: 0 <= i < |r| ==> r[i] == DecodeHit(rs[i])
  {
    Map(DecodeHit, rs)
  }

  /** The hit loop: a result for every readable hit, in order. */
  function DecodeAll(hits: seq<Hit>): (r: seq<SearchResult>)
    ensures |r| == |Readable(hits)| <= |hits|
    ensures forall i :: 0 <= i < |r| ==> r[i] == DecodeHit(Readable(hits)[i])
  {
    DecodeEach(Readable(hits))
  }

  lemma {:induction false} ReadableAppend(a: seq<Hit>, b: seq<Hit>)
    ensures Readable(a + b) == Readable(a) + Readable(b)
    decreases |b|
  {
    if b == [] {
      assert a + b == a;
    } else {
      var b' := b[..|b| - 1];
      assert (a + b)[..|a + b| - 1] == a + b';
      assert (a + b)[|a + b| - 1] == b[|b| - 1];
      ReadableAppend(a, b');
    }
  }

  lemma DecodeEachAppend(x: seq<Hit>, y: seq<Hit>)
    requires forall i :: 0 <= i < |x| ==> x[i].Hit?
    requires forall i :: 0 <= i < |y| ==> y[i].Hit?
    ensures DecodeEach(x + y) == DecodeEach(x) + DecodeEach(y)
  {
    MapAppend(DecodeHit, x, y);
  }

  /** Decoding distributes over concatenation: results keep the store's
      order. */
  lemma DecodeAllAppend(a: seq<Hit>, b: seq<Hit>)
    ensures DecodeAll(a + b) == DecodeAll(a) + DecodeAll(b)
  {
    ReadableAppend(a, b);
    DecodeEachAppend(Readable(a), Readable(b));
  }

  /** A faulty hit is skipped without affecting its neighbours. */
  lemma DecodeSkipsFaulty(a: seq<Hit>, b: seq<Hit>)
    ensures DecodeAll(a + [Faulty] + b) == DecodeAll(a) + DecodeAll(b)
  {
    ReadableAppend(a + [Faulty], b);
    ReadableAppend(a, [Faulty]);
    assert Readable([Faulty]) == [];
    assert Readable(a + [Faulty] + b) == Readable(a) + Readable(b);
    DecodeEachAppend(Readable(a), Readable(b));
  }

  /** Without faulty hits nothing is skipped: result `i` is hit `i` decoded. */
  lemma {:induction false} ReadableAll(hits: seq<Hit>)
    requires forall i :: 0 <= i < |hits| ==> hits[i].Hit?
    ensures Readable(hits) == hits
    decreases |hits|
  {
    if hits != [] {
      ReadableAll(hits[..|hits| - 1]);
      assert hits[..|hits| - 1] + [hits[|hits| - 1]] == hits;
    }
  }

  /** Round trip: a point stored for a chunk decodes to the chunk's content,
      file name and page number. */
  lemma PayloadRoundTrip(c: DocumentChunk, idText: string, score: Float)
    requires IsInt32(c.pageNumber)
    ensures DecodeHit(Hit(idText, score, ChunkPayload(c)))
         == SearchResult(idText, c.content, c.fileName, c.pageNumber, score)
  {
    IntDecimalRoundTrip(c.pageNumber);
  }

  /** How the stored page number decodes.  A missing entry gives 0.  An
      integer gives itself when it fits in 32 bits and 0 otherwise.  A
      boolean gives 0, and so does any text holding a character no number
      can contain. */
  lemma PageNumberDefaults(payload: Payload, idText: string, score: Float)
    ensures var pn := DecodeHit(Hit(idText, score, payload)).pageNumber;
            && ("pageNumber" !in payload ==> pn == 0)
            && ("pageNumber" in payload && payload["pageNumber"].IntegerValue? ==>
                  var n := payload["pageNumber"].n;
                  pn == if IsInt32(n) then n else 0)
            && ("pageNumber" in payload && payload["pageNumber"].BoolValue? ==> pn == 0)
            && ("pageNumber" in payload && payload["pageNumber"].StringValue? && HasStrayChar(payload["pageNumber"].s)
                ==> pn == 0)
  {
    if "pageNumber" in payload {
      var text := GetPayloadValue(payload, "pageNumber");
      match payload["pageNumber"]
      case BoolValue(b) =>
        assert !IsNumberChar(text[|text| - 1]);
        assert HasStrayChar(text);
      case _ =>
    }
  }

  // ---------------------------------------------------------------------
  // SearchAsync

  datatype SearchRun = SearchRun(result: Outcome<seq<SearchResult>>, calls: seq<Call>)

  /** `(ulong)limit`: the limit wraps around modulo 2^64. */
  function LimitAsUlong(limit: int): (r: nat)
    ensures r < TwoTo64
    ensures 0 <= limit < TwoTo64 ==> r == limit
    ensures limit < 0 && -limit <= TwoTo64 ==> r == TwoTo64 + limit
  {
    limit % TwoTo64
  }

  /** `SearchAsync`.  `pointsCount` answers the collection-info request,
      `embedding` the embedding request, and `reply` the nearest-neighbour
      search (`Returns(None)` is a null list). */
  function Search(query: Option<string>, limit: int, threshold: Float,
                  pointsCount: Outcome<nat>, embedding: Outcome<Vector>, reply: Outcome<Option<seq<Hit>>>)
    : (r: SearchRun)
    ensures |r.calls| >= 1 && r.calls[0] == GetCollectionInfo(CollectionName)
    ensures forall c :: c in r.calls && c.NearestSearch? ==>
              c.name == CollectionName && c.scoreThreshold == 0.0 && c.limit == LimitAsUlong(limit)
    ensures pointsCount == Returns(0) ==> r == SearchRun(Returns([]), [GetCollectionInfo(CollectionName)])
    ensures pointsCount.Returns? && pointsCount.value > 0 ==> |r.calls| >= 2 && r.calls[1] == Embed(query)
    ensures pointsCount.Returns? && pointsCount.value > 0 && embedding == Returns([]) ==> r.result.Throws?
    ensures r.result.Returns? && r.result.value != [] ==>
              reply.Returns? && reply.value.Some? && |r.result.value| <= |reply.value.value|
    ensures r.result.Throws? <==>
              || pointsCount.Throws?
              || (pointsCount.value > 0 && (embedding.Throws? || embedding.value == [] || reply.Throws?))
    ensures (pointsCount.Returns? && pointsCount.value > 0 && embedding.Returns? && embedding.value != []
             && reply == Returns(None)) ==> r.result == Returns([])
    ensures pointsCount.Throws? ==> r.calls == [GetCollectionInfo(CollectionName)]
    ensures (pointsCount.Returns? && pointsCount.value > 0 && (embedding.Throws? || embedding.value == []))
            ==> r.calls == [GetCollectionInfo(CollectionName), Embed(query)]
    ensures (pointsCount.Returns? && pointsCount.value > 0 && embedding.Returns? && embedding.value != [])
            ==> r.calls == [GetCollectionInfo(CollectionName), Embed(query),
                            NearestSearch(CollectionName, embedding.value, LimitAsUlong(limit), 0.0)]
  {
    var info := [GetCollectionInfo(CollectionName)];
    match pointsCount
    case Throws => SearchRun(Throws, info)
    case Returns(count) =>
      if count == 0 then SearchRun(Returns([]), info)
      else
        var embedCalls := info + [Embed(query)];
        match embedding
        case Throws => SearchRun(Throws, embedCalls)
        case Returns(v) =>
          if |v| == 0 then SearchRun(Throws, embedCalls)
          else
            var calls := embedCalls + [NearestSearch(CollectionName, v, LimitAsUlong(limit), 0.0)];
            match reply
            case Throws => SearchRun(Throws, calls)
            case Returns(None) => SearchRun(Returns([]), calls)
            case Returns(Some(hits)) => SearchRun(Returns(DecodeAll(hits)), calls)
  }

  /** The threshold argument has no effect. */
  lemma SearchIgnoresThreshold(query: Option<string>, limit: int, t1: Float, t2: Float,
                               pointsCount: Outcome<nat>, embedding: Outcome<Vector>,
                               reply: Outcome<Option<seq<Hit>>>)
    ensures Search(query, limit, t1, pointsCount, embedding, reply)
         == Search(query, limit, t2, pointsCount, embedding, reply)
  {
  }

  /** The results of a successful search are the decoded hits, in store
      order; the embedding and search calls were both made. */
  lemma SearchDecodes(query: Option<string>, limit: int, threshold: Float, count: nat, v: Vector, hits: seq<Hit>)
    requires count > 0 && v != []
    ensures Search(query, limit, threshold, Returns(count), Returns(v), Returns(Some(hits)))
         == SearchRun(Returns(DecodeAll(hits)),
                      [GetCollectionInfo(CollectionName), Embed(query),
                       NearestSearch(CollectionName, v, LimitAsUlong(limit), 0.0)])
  {
  }

  /** Searching finds what storing put there: hits carrying the payloads of
      stored chunks decode, in order, to those chunks' content, file name
      and page number. */
  lemma StoredChunksDecode(chunks: seq<DocumentChunk>, hits: seq<Hit>)
    requires |hits| == |chunks|
    requires forall i :: 0 <= i < |hits| ==>
               hits[i].Hit? && hits[i].payload == ChunkPayload(chunks[i]) && IsInt32(chunks[i].pageNumber)
    ensures |DecodeAll(hits)| == |hits|
    ensures forall i :: 0 <= i < |hits| ==>
              DecodeAll(hits)[i]
              == SearchResult(hits[i].idText, chunks[i].content, chunks[i].fileName, chunks[i].pageNumber, hits[i].score)
  {
    ReadableAll(hits);
    forall i | 0 <= i < |hits|
      ensures DecodeHit(hits[i])
           == SearchResult(hits[i].idText, chunks[i].content, chunks[i].fileName, chunks[i].pageNumber, hits[i].score)
    {
      var h := hits[i];
      assert h == Hit(h.idText, h.score, ChunkPayload(chunks[i]));
      PayloadRoundTrip(chunks[i], h.idText, h.score);
    }
  }
}

=== FILE: rag_controller.dfy ===
/** RagController: the decision ladder of `SearchWithRag`, which checks the
    query, hands the request to the orchestrator and picks the status code
    from the response's `Success` flag. */
module RagController {
  import opened Outcomes
  import opened Text
  import opened Models
  import RagService

  const EmptyQueryMessage: string := "Search query cannot be empty"
  const InternalErrorMessage: string := "Internal server error occurred while processing your request"

  /** The status code, the body, and the requests handed to the
      orchestrator. */
  datatype RagHttpRun = RagHttpRun(status: int, body: RagSearchResponse, forwarded: seq<RagSearchRequest>)

  /** A response built by the controller itself: the defaults, with
      `Success` false, the message and the query echoed. */
  function ControllerError(request: RagSearchRequest, message: string): RagSearchResponse {
    DefaultRagSearchResponse.(success := false, errorMessage := message, query := request.query)
  }

  /** `SearchWithRag`.  `service` is what `SearchWithRagAsync` gives back. */
  function SearchWithRag(request: RagSearchRequest, service: Outcome<RagSearchResponse>): (r: RagHttpRun)
    ensures IsNullOrWhiteSpace(request.query) ==>
              r == RagHttpRun(400, ControllerError(request, EmptyQueryMessage), [])
    ensures !IsNullOrWhiteSpace(request.query) ==> r.forwarded == [request]
    ensures r.status == 200 <==> !IsNullOrWhiteSpace(request.query) && service.Returns? && service.value.success
    ensures r.body.success <==> r.status == 200
    ensures r.forwarded != [] && service.Returns? ==> r.body == service.value
    ensures r.forwarded != [] && service.Throws? ==>
              r == RagHttpRun(500, ControllerError(request, InternalErrorMessage), [request])
    ensures r.body.query == request.query || (service.Returns? && r.body == service.value)
  {
    if IsNullOrWhiteSpace(request.query) then
      RagHttpRun(400, ControllerError(request, EmptyQueryMessage), [])
    else
      match service
      case Throws => RagHttpRun(500, ControllerError(request, InternalErrorMessage), [request])
      case Returns(response) =>
        if !response.success then RagHttpRun(500, response, [request])
        else RagHttpRun(200, response, [request])
  }

  /** The status codes the action can give, and what each means. */
  lemma StatusCases(request: RagSearchRequest, service: Outcome<RagSearchResponse>)
    ensures var r := SearchWithRag(request, service);
            && r.status in {200, 400, 500}
            && (r.status == 400 <==> IsNullOrWhiteSpace(request.query))
            && (r.status == 500 <==> !IsNullOrWhiteSpace(request.query)
                                     && (service.Throws? || !service.value.success))
  {
  }

  /** Composed with the orchestrator: a non-blank query is answered with
      200 exactly when retrieval worked, and the body is the orchestrator's
      response either way, with its query echoed; a blank query reaches
      neither retrieval nor the chat model. */
  lemma ThroughOrchestrator(request: RagSearchRequest, retrieval: Outcome<seq<SearchResult>>,
                            reply: RagService.ChatReply, nl: string, elapsed: Float)
    ensures var run := RagService.SearchWithRag(request, retrieval, reply, nl, elapsed);
            var r := SearchWithRag(request, Returns(run.response));
            && (IsNullOrWhiteSpace(request.query) ==> r.forwarded == [] && r.status == 400)
            && (!IsNullOrWhiteSpace(request.query) ==>
                  && r.body == run.response
                  && r.body.query == request.query
                  && (r.status == 200 <==> retrieval.Returns?)
                  && (r.status == 500 ==> r.body.errorMessage == RagService.GenericErrorMessage))
  {
  }

  /** A request that leaves the query at its default (empty) value is
      refused with 400 and not forwarded, whatever its other fields. */
  lemma DefaultRequestRefused(maxResults: int, threshold: Float, includeSources: bool,
                              service: Outcome<RagSearchResponse>)
    ensures var request := DefaultRagSearchRequest.(maxResults := maxResults, threshold := threshold,
                                                    includeSourceDocuments := includeSources);
            SearchWithRag(request, service) == RagHttpRun(400, ControllerError(request, EmptyQueryMessage), [])
  {
  }
}

=== FILE: rag_service.dfy ===
/** RagService: retrieval-augmented answering.

    `SearchWithRag` is the three-way state machine over the retrieval
    outcome (throws / nothing found / results); `GenerateAnswer` builds the
    chat prompt from the retrieved excerpts and maps the chat server's
    reply to an answer, never raising.  The retrieval answer, the chat
    reply, the stopwatch reading and the platform newline that
    `StringBuilder.AppendLine` writes are parameters. */
module RagService {
  import opened Outcomes
  import opened Text
  import opened Models
  import QdrantVectorService

  // ---------------------------------------------------------------------
  // Fixed texts

  const NoInformationAnswer: string :=
    "I couldn't find any relevant information in the uploaded documents to answer your question. "
    + "Please try rephrasing your query or upload relevant documents."

  const GenericErrorMessage: string := "An error occurred while processing your request. Please try again."

  /** The answer when the chat server answers with a non-success status. */
  const StatusApology: string :=
    "I apologize, but I encountered an error while generating an answer. Please ensure Ollama is running and try again."

  /** The answer when the reply holds no message content. */
  const EmptyReplyApology: string :=
    "I apologize, but I couldn't generate a proper answer. Please try rephrasing your question."

  /** The answer when generating raises. */
  const ExceptionApology: string :=
    "I encountered an error while generating an answer. Please ensure Ollama is running with a compatible model and try again."

  /** The system prompt; its line breaks are single line feeds and its
      first line ends with a space. */
  const SystemPrompt: string :=
    "You are an intelligent document assistant. Your task is to answer questions based on the provided document excerpts. \n"
    + "\n"
    + "Guidelines:\n"
    + "1. Answer the question using ONLY the information provided in the document excerpts\n"
    + "2. If the information is not sufficient to answer the question, say so clearly\n"
    + "3. Cite which document(s) and page(s) you're referencing in your answer\n"
    + "4. Be concise but comprehensive\n"
    + "5. If there are conflicting information in different documents, mention this\n"
    + "6. Use a professional and helpful tone\n"
    + "\n"
    + "Remember: Only use the information from the provided documents. Do not add external knowledge."

  const ContextHeader: string := "Based on the following document excerpts:"

  const QuestionLead: string := "\n\nQuestion: "

  const PromptTail: string := "\n\nPlease provide a comprehensive answer based on the document excerpts above."

  const ChatModel: string := "llama3.2"

  // ---------------------------------------------------------------------
  // The prompt

  /** The lines `AppendLine` writes for the `i`-th (0-based) excerpt. */
  function Excerpt(doc: SearchResult, i: nat, nl: string): string {
    "Document " + IntToDecimal(i + 1) + " (from " + doc.fileName + ", page " + IntToDecimal(doc.pageNumber) + "):"
    + nl + doc.content + nl + nl
  }

  /** The excerpts of `docs` one by one, numbered from `start + 1`. */
  function ExcerptList(docs: seq<SearchResult>, start: nat, nl: string): (r: seq<string>)
    ensures |r| == |docs|
    ensures forall i :: 0 <= i < |r| ==> r[i] == Excerpt(docs[i], start + i, nl)
  {
    seq(|docs|, i requires 0 <= i < |docs| => Excerpt(docs[i], start + i, nl))
  }

  /** What the loop over the retrieved documents appends. */
  function Excerpts(docs: seq<SearchResult>, start: nat, nl: string): string {
    Flatten(ExcerptList(docs, start, nl))
  }

  /** The text of the context `StringBuilder`. */
  function ContextText(docs: seq<SearchResult>, nl: string): string {
    ContextHeader + nl + nl + Excerpts(docs, 0, nl)
  }

  /** The user message: the context, the question (a null query reads as
      empty) and the closing instruction. */
  function UserPrompt(query: Option<string>, docs: seq<SearchResult>, nl: string): string {
    ContextText(docs, nl) + QuestionLead + query.GetOr("") + PromptTail
  }

  /** The request `GenerateAnswerAsync` posts to the chat endpoint. */
  function ChatRequestFor(query: Option<string>, docs: seq<SearchResult>, nl: string): OllamaChatRequest {
    OllamaChatRequest(
      ChatModel,
      [ChatMessage(Some("system"), Some(SystemPrompt)), ChatMessage(Some("user"), Some(UserPrompt(query, docs, nl)))],
      false,
      Some(DefaultChatOptions.(temperature := 0.3)))
  }

  /** Excerpts of a concatenation are the excerpts of each part, the second
      numbered on from the first. */
  lemma ExcerptsAppend(a: seq<SearchResult>, b: seq<SearchResult>, start: nat, nl: string)
    ensures Excerpts(a + b, start, nl) == Excerpts(a, start, nl) + Excerpts(b, start + |a|, nl)
  {
    var la, lb := ExcerptList(a, start, nl), ExcerptList(b, start + |a|, nl);
    var l := ExcerptList(a + b, start, nl);
    forall i | 0 <= i < |l|
      ensures l[i] == (la + lb)[i]
    {
      if i < |a| {
        assert (a + b)[i] == a[i];
      } else {
        assert (a + b)[i] == b[i - |a|];
      }
    }
    assert l == la + lb;
    FlattenAppend(la, lb);
  }

  /** Document `i` appears as excerpt number `i + 1`, after the excerpts of
      the documents before it and before those after it. */
  lemma ExcerptPosition(docs: seq<SearchResult>, i: nat, nl: string)
    requires i < |docs|
    ensures Excerpts(docs, 0, nl)
         == Excerpts(docs[..i], 0, nl) + Excerpt(docs[i], i, nl) + Excerpts(docs[i + 1..], i + 1, nl)
  {
    var before, after := docs[..i], docs[i + 1..];
    SplitAround(docs, i);
    ExcerptsAppend(before, [docs[i]] + after, 0, nl);
    ExcerptsAppend([docs[i]], after, i, nl);
    ExcerptsSingle(docs[i], i, nl);
    Regroup(Excerpts(docs, 0, nl), Excerpts(before, 0, nl), Excerpts([docs[i]] + after, i, nl),
            Excerpt(docs[i], i, nl), Excerpts(after, i + 1, nl));
  }

  lemma SplitAround<T>(s: seq<T>, i: nat)
    requires i < |s|
    ensures s == s[..i] + ([s[i]] + s[i + 1..])
  {
  }

  lemma Regroup(whole: string, a: string, rest: string, e: string, b: string)
    requires whole == a + rest && rest == e + b
    ensures whole == a + e + b
  {
  }

  lemma ExcerptsSingle(doc: SearchResult, k: nat, nl: string)
    ensures Excerpts([doc], k, nl) == Excerpt(doc, k, nl)
  {
    var l := ExcerptList([doc], k, nl);
    assert l == [Excerpt(doc, k, nl)];
    assert Flatten(l) == l[0] + Flatten(l[1..]);
    assert l[1..] == [];
  }

  /** The chat request: two messages, the system prompt then the user
      message laid out as `PromptListsSources` states, on the default model
      without streaming, with the default options except a lower
      temperature. */
  lemma ChatRequestShape(query: Option<string>, docs: seq<SearchResult>, nl: string)
    ensures var r := ChatRequestFor(query, docs, nl);
            && r.model == DefaultOllamaChatRequest.model
            && r.stream == DefaultOllamaChatRequest.stream
            && |r.messages| == 2
            && r.messages[0] == ChatMessage(Some("system"), Some(SystemPrompt))
            && r.messages[1] == ChatMessage(Some("user"), Some(UserPrompt(query, docs, nl)))
            && r.options.Some?
            && r.options.value.temperature == 0.3 != DefaultChatOptions.temperature
            && r.options.value.(temperature := DefaultChatOptions.temperature) == DefaultChatOptions
  {
  }

  /** `e` occurs in `p` starting at offset `at`. */
  predicate OccursAt(p: string, at: nat, e: string) {
    at + |e| <= |p| && p[at..at + |e|] == e
  }

  /** The model sees every retrieved source, numbered in order, before the
      question: excerpt number `i + 1` sits in the user message right after
      the header, its two line breaks and the excerpts before it, and the
      query comes after all the excerpts. */
  lemma PromptListsSources(query: Option<string>, docs: seq<SearchResult>, nl: string, i: nat)
    requires i < |docs|
    ensures OccursAt(UserPrompt(query, docs, nl), ExcerptOffset(docs, i, nl), Excerpt(docs[i], i, nl))
    ensures OccursAt(UserPrompt(query, docs, nl), QueryOffset(docs, nl), query.GetOr(""))
    ensures ExcerptOffset(docs, i, nl) + |Excerpt(docs[i], i, nl)| <= QueryOffset(docs, nl)
  {
    PromptConcat(query, docs, nl);
    ExcerptPosition(docs, i, nl);
    Locate(UserPrompt(query, docs, nl), ExcerptOffset(docs, i, nl), QueryOffset(docs, nl),
           ContextHeader + nl + nl, Excerpts(docs, 0, nl),
           Excerpts(docs[..i], 0, nl), Excerpt(docs[i], i, nl), Excerpts(docs[i + 1..], i + 1, nl),
           QuestionLead, query.GetOr(""), PromptTail);
  }


  /** Where excerpt `i` starts in the user message: after the header, the blank line and the excerpts before it. */
  function ExcerptOffset(docs: seq<SearchResult>, i: nat, nl: string): nat
    requires i <= |docs|
  {
    |ContextHeader| + 2 * |nl| + |Excerpts(docs[..i], 0, nl)|
  }

  /** Where the question starts in the user message: after the context and the question lead. */
  function QueryOffset(docs: seq<SearchResult>, nl: string): nat
  {
    |ContextText(docs, nl)| + |QuestionLead|
  }

  /** The user message as one concatenation of its parts. */
  lemma PromptConcat(query: Option<string>, docs: seq<SearchResult>, nl: string)
    ensures ContextText(docs, nl) == (ContextHeader + nl + nl) + Excerpts(docs, 0, nl)
    ensures UserPrompt(query, docs, nl)
         == (ContextHeader + nl + nl) + Excerpts(docs, 0, nl) + QuestionLead + query.GetOr("") + PromptTail
  {
  }

  /** In `p == h + ex + l + q + t` with `ex == x + e + y`, the piece `e`
      sits at `at`, right after `h + x`, and `q` at `qat`, right after
      `h + ex + l`. */
  lemma Locate(p: string, at: nat, qat: nat, h: string, ex: string, x: string, e: string, y: string,
               l: string, q: string, t: string)
    requires p == h + ex + l + q + t && ex == x + e + y
    requires at == |h| + |x| && qat == |h| + |ex| + |l|
    ensures OccursAt(p, at, e)
    ensures OccursAt(p, qat, q)
    ensures at + |e| <= qat
  {
    assert p == (h + x) + e + (y + l + q + t);
    assert p == (h + ex + l) + q + t;
  }

  // ---------------------------------------------------------------------
  // The chat reply

  /** A JSON member that may be missing, `null`, or present. */
  datatype Field<T> = Absent | Null | Present(value: T)

  datatype MessageJson = MessageJson(content: Field<string>)

  /** The reply body as JSON: not parseable, the literal `null`, or an
      object with a `message` member. */
  datatype ChatJson = Malformed | JsonNull | ChatObject(message: Field<MessageJson>)

  /** What the POST gives back: it raises, or a status with a body whose
      reading may raise. */
  datatype ChatReply = SendFailed | Reply(status: int, body: Outcome<ChatJson>)

  predicate IsSuccessStatus(status: int) {
    200 <= status <= 299
  }

  /** A JSON string member deserialised into a property whose default is "". */
  function StringMember(f: Field<string>): Option<string> {
    match f
    case Absent => Some("")
    case Null => None
    case Present(s) => Some(s)
  }

  /** `JsonSerializer.Deserialize<OllamaChatResponse>`: missing members keep
      the property defaults, so a missing `message` is a default
      `ChatMessage`. */
  function DeserializeChatResponse(j: ChatJson): (r: Outcome<Option<OllamaChatResponse>>)
    ensures r.Throws? <==> j.Malformed?
    ensures j.ChatObject? && j.message.Absent? ==> r == Returns(Some(DefaultOllamaChatResponse))
  {
    match j
    case Malformed => Throws
    case JsonNull => Returns(None)
    case ChatObject(m) =>
      var message := match m
        case Absent => DefaultOllamaChatResponse.message
        case Null => None
        case Present(mj) => Some(DefaultChatMessage.(content := StringMember(mj.content)));
      Returns(Some(DefaultOllamaChatResponse.(message := message)))
  }

  /** `chatResponse?.Message?.Content`. */
  function ReplyContent(r: Option<OllamaChatResponse>): Option<string> {
    if r.Some? && r.value.message.Some? then r.value.message.value.content else None
  }

  /** `GenerateAnswerAsync` on the reply to the request it sends. */
  function GenerateAnswer(reply: ChatReply): (r: string)
    ensures reply.SendFailed? ==> r == ExceptionApology
    ensures reply.Reply? && reply.body.Throws? ==> r == ExceptionApology
    ensures reply.Reply? && !IsSuccessStatus(reply.status) && reply.body.Returns? ==> r == StatusApology
    ensures reply.Reply? && IsSuccessStatus(reply.status) && reply.body.Returns? && reply.body.value.Malformed?
            ==> r == ExceptionApology
  {
    match reply
    case SendFailed => ExceptionApology
    case Reply(status, body) =>
      match body
      case Throws => ExceptionApology
      case Returns(j) =>
        if !IsSuccessStatus(status) then StatusApology
        else
          match DeserializeChatResponse(j)
          case Throws => ExceptionApology
          case Returns(resp) =>
            var content := ReplyContent(resp);
            if content.Some? then Trim(content.value) else EmptyReplyApology
  }

  /** The content a successful reply carries, if any. */
  function SuccessContent(reply: ChatReply): Option<string> {
    if reply.Reply? && IsSuccessStatus(reply.status) && reply.body.Returns?
       && reply.body.value.ChatObject? then
      match reply.body.value.message
      case Absent => Some("")
      case Null => None
      case Present(mj) => StringMember(mj.content)
    else None
  }

  /** The generator never fails: it answers either one of the three fixed
      apologies or the trimmed content of a successful reply, and the
      trimmed content exactly when there is one. */
  lemma GeneratorOutcomes(reply: ChatReply)
    ensures var r := GenerateAnswer(reply);
            && (SuccessContent(reply).Some? ==> r == Trim(SuccessContent(reply).value))
            && (SuccessContent(reply).None? ==> r in {StatusApology, EmptyReplyApology, ExceptionApology})
  {
    match reply
    case SendFailed =>
      assert GenerateAnswer(reply) == ExceptionApology;
    case Reply(status, body) =>
      if body.Throws? {
        assert GenerateAnswer(reply) == ExceptionApology;
      } else if !IsSuccessStatus(status) {
        assert GenerateAnswer(reply) == StatusApology;
      } else if body.value.Malformed? {
        assert GenerateAnswer(reply) == ExceptionApology;
      } else if SuccessContent(reply).None? {
        assert GenerateAnswer(reply) == EmptyReplyApology;
      }
  }

  /** A successful reply without a `message` member, or with empty or blank
      content, gives the empty answer: a successful answer can be empty. */
  lemma EmptyAnswerOnSuccess(status: int, blank: string)
    requires IsSuccessStatus(status) && AllWhite(blank)
    ensures GenerateAnswer(Reply(status, Returns(ChatObject(Absent)))) == ""
    ensures GenerateAnswer(Reply(status, Returns(ChatObject(Present(MessageJson(Present(blank))))))) == ""
  {
  }

  /** A `null` message or content is the only way a successful reply ends
      in the empty-reply apology. */
  lemma EmptyReplyApologyCases(reply: ChatReply)
    ensures GenerateAnswer(reply) == EmptyReplyApology <==>
              (reply.Reply? && IsSuccessStatus(reply.status) && reply.body.Returns?
               && (reply.body.value.JsonNull?
                   || (reply.body.value.ChatObject?
                       && (reply.body.value.message.Null?
                           || (reply.body.value.message.Present? && reply.body.value.message.value.content.Null?)))))
               || (SuccessContent(reply).Some? && Trim(SuccessContent(reply).value) == EmptyReplyApology)
  {
  }

  // ---------------------------------------------------------------------
  // SearchWithRagAsync

  /** The calls the orchestrator makes. */
  datatype RagCall = Retrieve(query: Option<string>, limit: int, threshold: Float) | Chat(request: OllamaChatRequest)

  datatype RagRun = RagRun(response: RagSearchResponse, calls: seq<RagCall>)

  /** `SearchWithRagAsync`.  `retrieval` is what the vector search gives
      back, `reply` what the chat server answers, `elapsed` the stopwatch
      reading. */
  function SearchWithRag(request: RagSearchRequest, retrieval: Outcome<seq<SearchResult>>, reply: ChatReply,
                         nl: string, elapsed: Float): (r: RagRun)
    ensures r.response.query == request.query
    ensures r.response.tokensUsed == 0
    ensures |r.calls| >= 1 && r.calls[0] == Retrieve(request.query, request.maxResults, request.threshold)
    ensures r.response.success <==> retrieval.Returns?
    ensures r.response.success ==> r.response.errorMessage == ""
    ensures retrieval == Returns([]) ==>
              && r.response == DefaultRagSearchResponse.(query := request.query, generatedAnswer := NoInformationAnswer)
              && r.calls == [Retrieve(request.query, request.maxResults, request.threshold)]
    ensures retrieval.Throws? ==>
              && r.response.errorMessage == GenericErrorMessage
              && r.response.generatedAnswer == ""
              && r.response.sourceDocuments == []
              && r.response.responseTime == Measured(elapsed)
              && |r.calls| == 1
    ensures retrieval.Returns? && retrieval.value != [] ==>
              && r.response.sourceDocuments == (if request.includeSourceDocuments then retrieval.value else [])
              && r.response.generatedAnswer == GenerateAnswer(reply)
              && r.response.responseTime == Measured(elapsed)
              && r.calls == [Retrieve(request.query, request.maxResults, request.threshold),
                             Chat(ChatRequestFor(request.query, retrieval.value, nl))]
  {
    var response := DefaultRagSearchResponse.(query := request.query);
    var retrieve := Retrieve(request.query, request.maxResults, request.threshold);
    match retrieval
    case Throws =>
      RagRun(response.(success := false, errorMessage := GenericErrorMessage, responseTime := Measured(elapsed)),
             [retrieve])
    case Returns(results) =>
      if |results| == 0 then
        RagRun(response.(generatedAnswer := NoInformationAnswer, success := true), [retrieve])
      else
        var answer := GenerateAnswer(reply);
        RagRun(response.(generatedAnswer := answer,
                         sourceDocuments := if request.includeSourceDocuments then results else [],
                         success := true,
                         responseTime := Measured(elapsed)),
               [retrieve, Chat(ChatRequestFor(request.query, results, nl))])
  }

  /** The stopwatch reading is recorded on every path but the empty one. */
  lemma ResponseTimeRecorded(request: RagSearchRequest, retrieval: Outcome<seq<SearchResult>>, reply: ChatReply,
                             nl: string, elapsed: Float)
    ensures var r := SearchWithRag(request, retrieval, reply, nl, elapsed).response;
            r.responseTime.NotMeasured? <==> retrieval == Returns([])
  {
  }

  /** With results in hand the answer is never an error: the response is
      successful and its answer is an apology or the model's trimmed text. */
  lemma NonEmptyRetrievalSucceeds(request: RagSearchRequest, results: seq<SearchResult>, reply: ChatReply,
                                  nl: string, elapsed: Float)
    requires results != []
    ensures var r := SearchWithRag(request, Returns(results), reply, nl, elapsed).response;
            && r.success && r.errorMessage == ""
            && (r.generatedAnswer in {StatusApology, EmptyReplyApology, ExceptionApology}
                || (SuccessContent(reply).Some? && r.generatedAnswer == Trim(SuccessContent(reply).value)))
  {
    GeneratorOutcomes(reply);
  }

  /** A successful response can carry an empty answer. */
  lemma SuccessWithEmptyAnswer(request: RagSearchRequest, doc: SearchResult, nl: string, elapsed: Float)
    ensures var r := SearchWithRag(request, Returns([doc]), Reply(200, Returns(ChatObject(Absent))), nl, elapsed).response;
            r.success && r.generatedAnswer == ""
  {
    EmptyAnswerOnSuccess(200, "");
  }

  /** Composed with the vector search it calls: the response reports
      failure, with the generic message, exactly when the collection-info
      read fails, or the collection is not empty and the embedding fails,
      comes back empty, or the nearest-neighbour search fails. */
  lemma RetrievalFailureReported(request: RagSearchRequest, pointsCount: Outcome<nat>, embedding: Outcome<Vector>,
                                 hits: Outcome<Option<seq<QdrantVectorService.Hit>>>, reply: ChatReply,
                                 nl: string, elapsed: Float)
    ensures var retrieval := QdrantVectorService.Search(request.query, request.maxResults, request.threshold,
                                                        pointsCount, embedding, hits).result;
            var r := SearchWithRag(request, retrieval, reply, nl, elapsed).response;
            && (!r.success <==>
                  || pointsCount.Throws?
                  || (pointsCount.value > 0 && (embedding.Throws? || embedding.value == [] || hits.Throws?)))
            && (!r.success ==> r.errorMessage == GenericErrorMessage && r.generatedAnswer == "")
  {
  }
}

=== FILE: text.dfy ===
/** String helpers with the .NET semantics the services rely on: what counts
    as white space, `Trim`, `string.IsNullOrWhiteSpace`, `string.Length`
    (UTF-16 code units), decimal rendering of integers, `int.TryParse`, and
    the ordinal case-insensitive comparison used on content types. */
module Text {
  import opened Outcomes

  /** `char.IsWhiteSpace`: the space, line and paragraph separators of
      Unicode together with U+0009..U+000D and U+0085. */
  predicate IsWhiteSpace(c: char) {
    var n := c as int;
    || (0x09 <= n <= 0x0D) || n == 0x20 || n == 0x85 || n == 0xA0
    || n == 0x1680 || (0x2000 <= n <= 0x200A) || n == 0x2028 || n == 0x2029
    || n == 0x202F || n == 0x205F || n == 0x3000
  }

  /** The white space `int.TryParse` accepts around a number. */
  predicate IsNumberWhite(c: char) {
    var n := c as int;
    (0x09 <= n <= 0x0D) || n == 0x20
  }

  predicate AllWhite(s: string) {
    forall k :: 0 <= k < |s| ==> IsWhiteSpace(s[k])
  }

  /** `string.IsNullOrWhiteSpace`; `None` is the null reference. */
  predicate IsNullOrWhiteSpace(s: Option<string>) {
    s.None? || AllWhite(s.value)
  }

  // ---------------------------------------------------------------------
  // Trimming

  /** Drops the longest prefix whose characters all satisfy `white`. */
  function TrimStartBy(s: string, white: char -> bool): (r: string)
    ensures |r| <= |s|
    decreases |s|
  {
    if |s| > 0 && white(s[0]) then TrimStartBy(s[1..], white) else s
  }

  /** Drops the longest suffix whose characters all satisfy `white`. */
  function TrimEndBy(s: string, white: char -> bool): (r: string)
    ensures |r| <= |s|
    decreases |s|
  {
    if |s| > 0 && white(s[|s| - 1]) then TrimEndBy(s[..|s| - 1], white) else s
  }

  /** `TrimStartBy` keeps a suffix and drops only white characters, up to
      the first one that is not. */
  lemma {:induction false} TrimStartByFacts(s: string, white: char -> bool)
    ensures var r := TrimStartBy(s, white);
            && r == s[|s| - |r|..]
            && (forall k :: 0 <= k < |s| - |r| ==> white(s[k]))
            && (r == [] || !white(r[0]))
    decreases |s|
  {
    if |s| > 0 && white(s[0]) {
      TrimStartByFacts(s[1..], white);
    }
  }

  /** `TrimEndBy` keeps a prefix and drops only white characters, back to
      the last one that is not. */
  lemma {:induction false} TrimEndByFacts(s: string, white: char -> bool)
    ensures var r := TrimEndBy(s, white);
            && r == s[..|r|]
            && (forall k :: |r| <= k < |s| ==> white(s[k]))
            && (r == [] || !white(r[|r| - 1]))
    decreases |s|
  {
    if |s| > 0 && white(s[|s| - 1]) {
      TrimEndByFacts(s[..|s| - 1], white);
    }
  }

  /** `r` is the slice of `s` starting at `i`, and every character of `s`
      before or after that slice is white. */
  predicate IsTrimAt(r: string, s: string, i: int) {
    && 0 <= i <= |s| - |r|
    && (forall k :: 0 <= k < |r| ==> r[k] == s[i + k])
    && (forall k :: 0 <= k < |s| && (k < i || i + |r| <= k) ==> IsWhiteSpace(s[k]))
  }

  /** The number of leading white characters of `s`. */
  function LeadingWhite(s: string): nat {
    |s| - |TrimStartBy(s, IsWhiteSpace)|
  }

  /** `string.Trim()`: the text between the leading and the trailing white space. */
  function Trim(s: string): (r: string)
    ensures |r| <= |s|
    ensures forall k :: 0 <= k < |r| ==> r[k] in s
    ensures r == [] <==> AllWhite(s)
    ensures r != [] ==> !IsWhiteSpace(r[0]) && !IsWhiteSpace(r[|r| - 1])
    ensures s == [] || (!IsWhiteSpace(s[0]) && !IsWhiteSpace(s[|s| - 1])) ==> r == s
    ensures IsTrimAt(r, s, LeadingWhite(s))
  {
    var front := TrimStartBy(s, IsWhiteSpace);
    var r := TrimEndBy(front, IsWhiteSpace);
    TrimStartByFacts(s, IsWhiteSpace);
    TrimEndByFacts(front, IsWhiteSpace);
    TrimInside(s, front, r);
    r
  }

  lemma TrimInside(s: string, front: string, r: string)
    requires |front| <= |s| && front == s[|s| - |front|..]
    requires forall k :: 0 <= k < |s| - |front| ==> IsWhiteSpace(s[k])
    requires front == [] || !IsWhiteSpace(front[0])
    requires |r| <= |front| && r == front[..|r|]
    requires forall k :: |r| <= k < |front| ==> IsWhiteSpace(front[k])
    ensures forall k :: 0 <= k < |r| ==> r[k] in s
    ensures r == [] <==> AllWhite(s)
    ensures IsTrimAt(r, s, |s| - |front|)
  {
    var off := |s| - |front|;
    forall k | off + |r| <= k < |s|
      ensures IsWhiteSpace(s[k])
    {
      assert s[k] == front[k - off];
    }
    forall k | 0 <= k < |r|
      ensures r[k] in s
    {
      assert r[k] == front[k] == s[off + k];
    }
    if r == [] {
      assert front == [];
    } else {
      assert r[0] == s[off];
    }
  }

  // ---------------------------------------------------------------------
  // Concatenation

  /** Concatenation of a sequence of sequences, first to last. */
  function Flatten<T>(xss: seq<seq<T>>): seq<T>
    decreases |xss|
  {
    if xss == [] then [] else xss[0] + Flatten(xss[1..])
  }

  lemma {:induction false} FlattenAppend<T>(a: seq<seq<T>>, b: seq<seq<T>>)
    ensures Flatten(a + b) == Flatten(a) + Flatten(b)
    decreases |a|
  {
    if a == [] {
      assert a + b == b;
    } else {
      assert (a + b)[1..] == a[1..] + b;
      FlattenAppend(a[1..], b);
    }
  }

  // ---------------------------------------------------------------------
  // Length in UTF-16 code units

  /** The number of UTF-16 code units that encode `c`. */
  function CodeUnits(c: char): nat {
    if c as int >= 0x1_0000 then 2 else 1
  }

  /** `string.Length`: .NET strings are UTF-16, so a character outside the
      Basic Multilingual Plane counts twice. */
  function Utf16Length(s: string): nat
    decreases |s|
  {
    if s == [] then 0 else Utf16Length(s[..|s| - 1]) + CodeUnits(s[|s| - 1])
  }

  lemma {:induction false} Utf16LengthAppend(a: string, b: string)
    ensures Utf16Length(a + b) == Utf16Length(a) + Utf16Length(b)
    decreases |b|
  {
    if b == [] {
      assert a + b == a;
    } else {
      var b' := b[..|b| - 1];
      assert (a + b)[..|a + b| - 1] == a + b';
      assert (a + b)[|a + b| - 1] == b[|b| - 1];
      Utf16LengthAppend(a, b');
    }
  }

  lemma {:induction false} Utf16LengthBounds(s: string)
    ensures |s| <= Utf16Length(s) <= 2 * |s|
    decreases |s|
  {
    if s != [] {
      Utf16LengthBounds(s[..|s| - 1]);
    }
  }

  /** Without characters outside the Basic Multilingual Plane, the UTF-16
      length is the number of characters. */
  lemma {:induction false} Utf16LengthBmp(s: string)
    requires forall k :: 0 <= k < |s| ==> s[k] as int < 0x1_0000
    ensures Utf16Length(s) == |s|
    decreases |s|
  {
    if s != [] {
      Utf16LengthBmp(s[..|s| - 1]);
    }
  }

  // ---------------------------------------------------------------------
  // Integers and their decimal text

  const MinInt32: int := -0x8000_0000
  const MaxInt32: int := 0x7FFF_FFFF

  predicate IsInt32(n: int) {
    MinInt32 <= n <= MaxInt32
  }

  predicate IsDigit(c: char) {
    '0' <= c <= '9'
  }

  predicate AllDigits(s: string) {
    forall k :: 0 <= k < |s| ==> IsDigit(s[k])
  }

  function DigitChar(d: nat): (c: char)
    requires d < 10
    ensures IsDigit(c) && c as int - '0' as int == d
  {
    ('0' as int + d) as char
  }

  /** The decimal digits of `n`, most significant first, without leading zeros. */
  function NatToDecimal(n: nat): (r: string)
    ensures |r| >= 1 && AllDigits(r)
    ensures r[0] == '0' ==> n == 0
    decreases n
  {
    if n < 10 then [DigitChar(n)] else NatToDecimal(n / 10) + [DigitChar(n % 10)]
  }

  /** `int.ToString()` / `long.ToString()`, with "-" as the negative sign. */
  function IntToDecimal(n: int): string {
    if n < 0 then "-" + NatToDecimal(-n) else NatToDecimal(n)
  }

  /** The number a run of decimal digits denotes. */
  function DecimalValue(s: string): nat
    requires AllDigits(s)
    decreases |s|
  {
    if s == [] then 0
    else DecimalValue(s[..|s| - 1]) * 10 + (s[|s| - 1] as int - '0' as int)
  }

  lemma {:induction false} DecimalRoundTrip(n: nat)
    ensures DecimalValue(NatToDecimal(n)) == n
    decreases n
  {
    if n >= 10 {
      var r := NatToDecimal(n);
      assert r[..|r| - 1] == NatToDecimal(n / 10);
      DecimalRoundTrip(n / 10);
    }
  }

  /** The NUL character, which `int.TryParse` tolerates at the very end. */
  predicate IsNul(c: char) {
    c == '\0'
  }

  /** The characters `int.TryParse` can accept anywhere in its input. */
  predicate IsNumberChar(c: char) {
    IsDigit(c) || IsNumberWhite(c) || c == '-' || c == '+' || IsNul(c)
  }

  /** `int.TryParse(s, out v)` with `NumberStyles.Integer`: optional white
      space around an optionally signed run of decimal digits whose value
      fits in 32 bits, then any number of NUL characters.  `None` on input
      is the null string. */
  function TryParseInt32(s: Option<string>): (r: Option<int>)
    ensures r.Some? ==> IsInt32(r.value)
    ensures s.None? || s.value == [] ==> r.None?
  {
    match s
    case None => None
    case Some(text) =>
      var t := TrimEndBy(TrimStartBy(TrimEndBy(text, IsNul), IsNumberWhite), IsNumberWhite);
      var negative := |t| > 0 && t[0] == '-';
      var digits := if |t| > 0 && (t[0] == '-' || t[0] == '+') then t[1..] else t;
      if digits == [] || !AllDigits(digits) then None
      else
        var v: int := if negative then -(DecimalValue(digits) as int) else DecimalValue(digits);
        if IsInt32(v) then Some(v) else None
  }

  /** Text that parses holds nothing but digits, signs, number white space
      and NUL characters. */
  lemma ParsedChars(text: string)
    requires TryParseInt32(Some(text)).Some?
    ensures forall k :: 0 <= k < |text| ==> IsNumberChar(text[k])
  {
    var u := TrimEndBy(text, IsNul);
    var front := TrimStartBy(u, IsNumberWhite);
    var t := TrimEndBy(front, IsNumberWhite);
    TrimEndByFacts(text, IsNul);
    TrimStartByFacts(u, IsNumberWhite);
    TrimEndByFacts(front, IsNumberWhite);
    var off := |u| - |front|;
    var digits := if |t| > 0 && (t[0] == '-' || t[0] == '+') then t[1..] else t;
    assert AllDigits(digits);
    forall k | 0 <= k < |text|
      ensures IsNumberChar(text[k])
    {
      if k < off {
        assert text[k] == u[k];
      } else if k < off + |t| {
        assert text[k] == u[k] == front[k - off] == t[k - off];
        if k - off > 0 || !(t[0] == '-' || t[0] == '+') {
          assert t[k - off] == if digits == t then digits[k - off] else digits[k - off - 1];
        }
      } else if k < |u| {
        assert text[k] == u[k] == front[k - off];
      }
    }
  }

  /** Rendering an integer and parsing the text back gives the integer when
      it fits in 32 bits, and fails otherwise. */
  lemma IntDecimalRoundTrip(n: int)
    ensures TryParseInt32(Some(IntToDecimal(n))) == if IsInt32(n) then Some(n) else None
  {
    var text := IntToDecimal(n);
    var m: nat := if n < 0 then -n else n;
    var ds := NatToDecimal(m);
    DecimalRoundTrip(m);
    assert text[|text| - 1] == ds[|ds| - 1];
    assert TrimEndBy(text, IsNul) == text;
    NoTrimNeeded(text, IsNumberWhite);
    if n < 0 {
      assert text[1..] == ds;
    } else {
      assert text == ds;
    }
  }

  lemma NoTrimNeeded(s: string, white: char -> bool)
    requires s != [] && !white(s[0]) && !white(s[|s| - 1])
    ensures TrimEndBy(TrimStartBy(s, white), white) == s
  {
  }

  // ---------------------------------------------------------------------
  // Case-insensitive comparison

  function ToUpperAscii(c: char): char {
    if 'a' <= c <= 'z' then (c as int - 32) as char else c
  }

  /** `a.Equals(b, StringComparison.OrdinalIgnoreCase)`, with case mapping
      restricted to ASCII letters. */
  predicate EqualsIgnoreCase(a: string, b: string) {
    |a| == |b| && forall k :: 0 <= k < |a| ==> ToUpperAscii(a[k]) == ToUpperAscii(b[k])
  }
}
